=== FILE: README.md ===
# DigiResa calendar — booking rules in Dafny

This project models the client-side booking rules of the DigiResa calendar front end and proves properties of them. It covers four screens.

- **The booking modal** (`BookingModal`, with the request body in `BookingPayload`):
  - which zone names a slot may be booked under (`zoneOptions`);
  - which staff may serve the chosen zone (`allowedStaffIds`), and the effect that resets a staff choice the zone does not allow;
  - the client-side validation (`preValidate`): the gap after a staff member's previous booking for a visio, and at most two physical bookings per half-day, with a minimum gap before the second;
  - the `book` gate, which sends nothing when validation objects;
  - the zone a visio is sent under;
  - the attendee list. It is the comma-separated invitees after the client e-mail, without repeated addresses, compared ignoring case.
- **The week calendar** (`CalendarWeek`):
  - the Monday a week starts on;
  - the normalisation of fetched bookings;
  - where the "now" line is drawn;
  - each staff member's free intervals for a day;
  - the cutting of those intervals into free 30-minute slots for each hour row, dropping any slot that a booking of the day overlaps.
- **The staff page** (`StaffView`): the slots narrowed to one staff member, the staff select, and the booking request it sends.
- **The staff × zone editor** (`StaffZones`):
  - the weekly check-box matrix built from the stored rules;
  - toggling a cell;
  - the rule stored for each cell;
  - the opening-time fields;
  - the create, update and delete requests a save sends, and what they do to the staff member's rules.

Times are integer minutes on the Europe/Paris wall clock. Day `d` spans minutes `1440·d` to `1440·d + 1439`, and day 0 is Thursday 1 January 1970. The morning is every hour before 13. A missing optional number is `None`. JavaScript truthiness of a number is `Some(v)` with `v != 0`. A missing string is `""`, which is falsy in every place the code tests it.

Shared helpers live in these modules:
- `Base`: `Option`;
- `Seqs`: filter, find, all/any, sub-sequence;
- `Text`: ASCII lower-casing, the `/visio/i` test, ECMAScript `trim`, `split`/join, decimal digits;
- `Clock`: days, hours, half-days, weekdays, strict overlap;
- `Domain`: the records the screens share.

## Model

| member | source | states |
|---|---|---|
| BookingModal.InitialStaff | app/components/BookingModal.tsx:48 | opening the modal preselects a staff member exactly when the slot has one staff id, and then it is that id |
| BookingModal.InitialStaffKeepsCandidates | app/components/BookingModal.tsx:48 | the preselection never changes which staff the visio gap is checked for |
| BookingModal.OverlapLock | app/components/BookingModal.tsx:62-73 | when the first physical booking that strictly overlaps the slot names a zone, the options are at most that one zone name. The name is resolved through `zone_id`, falling back to the slot's zone. It is offered when it is non-empty, and nothing is offered when it is empty |
| BookingModal.HalfDayLock | app/components/BookingModal.tsx:75-85 | with no overlap lock, the first physical booking starting on the slot's day and in the same half-day locks the options to its zone in the same way: that one name when non-empty, and nothing is offered when it is empty |
| BookingModal.Unlocked | app/components/BookingModal.tsx:88-95 | with neither lock, the options are the default options for the chosen staff member, or else for the slot's first staff member |
| BookingModal.DefaultOptions | app/components/BookingModal.tsx:88-95 | every option is the name of a zone linked to the staff member, or the slot's non-empty zone when no zone is linked. Every eligible linked zone is offered. With no linked zone the options are just the slot's zone, or none when the slot has no zone. For a physical meeting no option mentions "visio" in any case |
| BookingModal.AllowedStaffIds | app/components/BookingModal.tsx:99-109 | the result is an order-preserving sub-list of the slot's staff. It is the whole list for a visio or when no zone is chosen, and empty for an unknown zone name. Otherwise a staff id is kept iff it is linked to the first zone with that name and that zone's id is non-zero |
| BookingModal.ResetStaff | app/components/BookingModal.tsx:111-119 | the effect changes nothing for a visio, with no zone, with no staff, or with an allowed staff member. After it, a chosen staff member in physical mode with a zone is always allowed. A disallowed choice is replaced by the first allowed staff member, or by none when no one is allowed |
| BookingModal.ResetStaffIdempotent | app/components/BookingModal.tsx:112-119 | running the reset effect a second time changes nothing |
| BookingModal.BusyBeforeMeaning | app/components/BookingModal.tsx:141-143 | the `some` test holds for a candidate iff one of that candidate's bookings starting on the slot's day ends in `(start − gap, start]` |
| BookingModal.VisioBlockedMeaning | app/components/BookingModal.tsx:137-147 | the `every` test over a non-empty candidate list decides exactly that every candidate is busy just before the slot |
| BookingModal.PreValidate | app/components/BookingModal.tsx:126-166 | a visio is refused iff it is blocked, and the reason carries the gap from `demo_visio_min_gap_min ?? demo_visio_buffer_after_min ?? 15`. A physical booking is refused only for capacity or spacing, and never when its half-day holds no physical booking |
| BookingModal.PhysicalCapacity | app/components/BookingModal.tsx:150-155 | any two physical bookings in the slot's half-day refuse a physical booking for capacity, whoever's they are |
| BookingModal.PhysicalSpacing | app/components/BookingModal.tsx:156-163 | with exactly one physical booking in the half-day, refusal happens iff the slot starts after that booking ends by less than `demo_physique_second_min_gap_min ?? 90` minutes. The reason reports the gap and the requirement |
| BookingModal.VisioDefaultZone | app/components/BookingModal.tsx:180 | a visio goes under the first zone in the list whose name mentions visio, when there is one. Otherwise it goes under the slot's zone, else the first zone's name, else `''` |
| BookingModal.Book | app/components/BookingModal.tsx:168-192 | the booking is refused, with validation's reason, iff validation objects. Otherwise the request sent is the standard body under the visio default zone or the chosen zone |
| BookingPayload.Invitees | app/staff/page.tsx:601 | every invitee is non-empty, trimmed and comma-free. A string is an invitee iff it is the trimmed, non-empty form of a comma-separated piece of the field |
| BookingPayload.InviteesRoundTrip | app/staff/page.tsx:601 | typing non-empty, trimmed, comma-free addresses joined by commas gives back exactly that list |
| BookingPayload.Candidates | app/staff/page.tsx:602 | a non-empty client e-mail comes first, followed by the invitees. An empty one adds nothing |
| BookingPayload.Dedup | app/staff/page.tsx:603-604 | the result is an order-preserving sub-list with no two entries equal ignoring case, and every input address is represented |
| BookingPayload.DedupFromSound | app/staff/page.tsx:603-604 | the `seen`-set filter keeps only addresses not seen before, no address twice, and represents every unseen one |
| BookingPayload.DedupKeepsFirstOccurrences | app/staff/page.tsx:603-604 | the filter keeps exactly the first occurrence of each address, in order, agreeing with an independent definition |
| BookingPayload.DedupAfter | app/staff/page.tsx:603-604 | the first occurrences of `p + e` are those of `p` followed by what the filter keeps of `e` once `p`'s keys are seen |
| BookingPayload.AttendeeList | app/staff/page.tsx:601-604 | the client e-mail, when given, is the first attendee. Attendees are distinct ignoring case, and each is the e-mail or an invitee. Every invitee is represented. The list is exactly the first occurrence of each address among the e-mail and the invitees |
| BookingPayload.BuildRequest | app/staff/page.tsx:606-615 | the slot times and zone name are the given ones. Client name, e-mail, phone and notes are the form's, and the summary is `DÉMO DIGIRESA (<name>)`. The meeting mode is visio iff the box is checked. The restaurant, city and staff keys are present iff set or truthy, and then carry the form's value. The attendees are the de-duplicated list |
| Text.Trim | app/staff/page.tsx:601 | the result has no white space at either end and is a contiguous part of the input |
| Text.TrimOfTrimmed | app/staff/page.tsx:601 | trimming a string with no white space at either end changes nothing |
| Text.Split | app/staff/page.tsx:601 | there is at least one piece, no piece contains the separator, and joining the pieces gives the input back |
| Text.JoinGlue | app/staff/page.tsx:601 | gluing a character onto the first piece puts it in front of the joined string |
| Text.SplitJoin | app/staff/page.tsx:601 | splitting separator-free pieces joined by the separator gives the pieces back |
| Text.DecimalRoundTrip | app/staff/page.tsx:101 | reading back a rendered natural number gives the number |
| CalendarWeek.StartOfWeekWeekday | app/page.tsx:42 | the start of a week falls on the locale's first weekday, at most six days before the given day |
| CalendarWeek.WeekStartMonday | app/page.tsx:41-44 | with Monday-first weeks the result is the Monday of the day's own week. With Sunday-first weeks it is the Monday after that week's Sunday. In a locale starting its weeks on any other day it is the day after that start, within a day of the given day's week |
| CalendarWeek.NormaliseMode | app/page.tsx:103 | the mode is visio iff the field is exactly `'visio'` and physical iff it is exactly `'physique'`. Any other value is dropped |
| CalendarWeek.MapBooking | app/page.tsx:91-104 | id, times, zone id and staff id are kept. Zone and client name are kept, or `''` when missing. Staff name, restaurant and city are kept when non-empty and absent otherwise. The title falls back to the client name, then to `''` |
| CalendarWeek.MapBookingIdempotent | app/page.tsx:91-104 | mapping an already mapped booking again changes nothing |
| CalendarWeek.MinutesFromStartOfInstant | app/page.tsx:124-127 | on an instant's hour and minute, `minutesFromStart` is the minute of the day less 360. It is negative exactly before 06:00 and below 1080 |
| CalendarWeek.NowLinePosition | app/page.tsx:383 | the line is drawn iff now falls on that day between 06:00 and 22:00 inclusive. Its offset is then the minutes since 06:00, within `[0, 960]` |
| CalendarWeek.InsertSorted | app/page.tsx:138 | inserting into a list sorted by start keeps it sorted |
| CalendarWeek.InsertPermutes | app/page.tsx:138 | inserting adds exactly the one element, as a multiset |
| CalendarWeek.SortByStart | app/page.tsx:138 | the result is sorted by start and is a permutation of the input |
| CalendarWeek.AvailabilityForDay | app/page.tsx:129-139 | the result is sorted by start and is, as a multiset, the day's availabilities of that staff member. An interval is in it iff it is a merged availability of that staff member starting on that day |
| CalendarWeek.BookingsForDay | app/page.tsx:141-143 | the result keeps, in order, exactly the bookings starting on that day, of every staff member. Each keeps as many copies as the input has |
| CalendarWeek.CreateSlot | app/page.tsx:145-155 | the slot starts at the click, lasts `default_duration_min ?? 30` minutes, has only the clicked staff member and has no zone |
| CalendarWeek.HasBookingIffTaken | app/page.tsx:297-302 | the loop's `some` test holds iff a booking of the day strictly overlaps the 30-minute slot |
| CalendarWeek.CutSlots | app/page.tsx:292-313 | every emitted start lies in range with a whole slot before the end, and is free of bookings. Starts strictly increase, so the loop terminates |
| CalendarWeek.CutSlotsExact | app/page.tsx:292-313 | a start is emitted iff it is on the 30-minute grid from the first start, its slot fits before the end, and no booking of the day overlaps it |
| CalendarWeek.IntervalSlots | app/page.tsx:290-295 | an interval yields slots only when it strictly overlaps the hour. Each slot lies within both the interval and the hour |
| CalendarWeek.OverlapGuardRedundant | app/page.tsx:290 | the overlap test before the loop decides nothing the loop bounds do not already decide |
| CalendarWeek.IntervalSlotSound | app/page.tsx:288-313 | a slot cut from one interval carries that interval's staff member, lies in both the hour and the interval, and no booking of the day overlaps it |
| CalendarWeek.IntervalsSlotsSound | app/page.tsx:288-315 | each slot of a staff member is tagged with that member, lies in the hour, is free, and fits in one of that member's intervals |
| CalendarWeek.StaffSlotsSound | app/page.tsx:285-316 | each slot belongs to a listed staff member and fits in one of that member's availabilities for the day |
| CalendarWeek.SlotsForHour | app/page.tsx:279-316 | each drawn slot lies in the hour, belongs to a listed staff member and fits one of that member's availabilities. No booking of the day overlaps it, whoever owns the booking |
| CalendarWeek.SlotsForHourComplete | app/page.tsx:279-316 | every free 30-minute grid point of a listed staff member's interval within the hour is drawn for that member |
| StaffView.ViewSlots | app/staff/page.tsx:38-41 | without a filter the view is all slots. With one, it is the order-preserving sub-list of the slots offering that staff member, each kept as many times as it occurs |
| StaffView.ViewSlotsIdempotent | app/staff/page.tsx:38-41 | filtering the view again by the same staff member changes nothing |
| StaffView.NumberOf | app/staff/page.tsx:101 | blank text reads as 0. A digit string reads as its decimal value, and a `-` or `+` followed by digits as the signed value. Any other text reads as not-a-number |
| StaffView.ParseStaffSelect | app/staff/page.tsx:101 | a select value sets a filter iff it reads as a non-zero number, and then the filter is that number. Zero and unreadable values clear it |
| StaffView.NonNegativeReadsBack | app/staff/page.tsx:99-101 | reading back a rendered non-negative integer gives that integer |
| StaffView.NegativeReadsBack | app/staff/page.tsx:99-101 | reading back a rendered negative integer, minus sign included, gives that integer |
| StaffView.SelectRoundTrip | app/staff/page.tsx:99-101 | reading back the value the select renders for a filter gives the same filter |
| StaffView.StaffBook | app/staff/page.tsx:596-615 | the staff page always sends a request, under the slot's own zone, with the de-duplicated attendees and the staff key iff one is chosen |
| StaffView.StaffBookAgreesWithModal | app/staff/page.tsx:606-615 | when the calendar's modal would send under the slot's zone, the staff page sends exactly the same body |
| StaffZones.ExistingMap | app/staff-zones/page.tsx:60-67 | a cell has an entry iff the selected staff member has a rule there, and the entry is one of that member's rules for that cell |
| StaffZones.ExistingMapLastWins | app/staff-zones/page.tsx:60-67 | with several rules for one cell, the last one is kept |
| StaffZones.BuildMatrix | app/staff-zones/page.tsx:41-53 | every entry is `true`, and a cell is checked iff the selected staff member has a rule there, i.e. iff it has an existing rule. Other staff's rules are ignored |
| StaffZones.Toggle | app/staff-zones/page.tsx:55-58 | the toggled cell's check box flips, and every other entry is unchanged |
| StaffZones.ToggleTwice | app/staff-zones/page.tsx:55-58 | toggling a cell twice shows the same check boxes as before |
| StaffZones.LastTime | app/staff-zones/page.tsx:47-50 | the field either keeps its value or takes a non-empty time of one of the staff member's rules. It keeps its value when no such rule has a time |
| StaffZones.LastTimeIsLast | app/staff-zones/page.tsx:47-50 | the time taken is that of the last of the staff member's rules with a non-empty value |
| StaffZones.CaptureTimes | app/staff-zones/page.tsx:41-53 | the time fields change only while both hold 09:00:00 and 18:00:00, and only to times stored in the staff member's rules |
| StaffZones.CaptureTakesLastRule | app/staff-zones/page.tsx:47-50 | when the staff member's last rule has both times, a fresh page shows that rule's times |
| StaffZones.NormaliseTime | app/staff-zones/page.tsx:110 | an `HH:MM` value gains `:00` seconds, and other lengths are kept as typed |
| StaffZones.DisplayTime | app/staff-zones/page.tsx:110 | the input shows at most the first five characters of the stored time |
| StaffZones.NormaliseIdempotent | app/staff-zones/page.tsx:114 | normalising twice is normalising once |
| StaffZones.TimeFieldRoundTrip | app/staff-zones/page.tsx:110-114 | an `HH:MM` entry is shown back as typed, and a stored `HH:MM:00` value survives being shown and re-entered |
| StaffZones.CellOp | app/staff-zones/page.tsx:74-89 | for one cell: create iff checked with no rule; delete iff unchecked with a rule; nothing iff the rule already agrees or there is none to delete; otherwise update. Creates and updates carry the staff id, the cell and the chosen times, and updates and deletes carry the existing rule's id |
| StaffZones.GridCells | app/staff-zones/page.tsx:72-73 | the visited cells are exactly each listed zone with weekdays 0 to 6 |
| StaffZones.SaveOps | app/staff-zones/page.tsx:69-94 | every create or update carries the selected staff id and the chosen times, for a checked cell of the grid. Creates are only for cells with no rule, and updates and deletes only name existing rule ids |
| StaffZones.OpsForSound | app/staff-zones/page.tsx:72-91 | every request comes from the single-cell decision for one of the visited cells |
| StaffZones.LoadedMatrixOnlyUpdates | app/staff-zones/page.tsx:72-91 | saving right after the matrix is computed from the stored rules creates and deletes nothing |
| StaffZones.ApplyOpsAppend | app/staff-zones/page.tsx:92 | applying two batches of requests one after the other is applying their concatenation |
| StaffZones.CellOpEffect | app/staff-zones/page.tsx:74-89 | one cell's request settles that cell to the matrix and the chosen times, and touches no other cell |
| StaffZones.ApplyOpsFor | app/staff-zones/page.tsx:72-91 | applying the requests for a list of distinct cells settles exactly those cells and leaves all others as they were |
| StaffZones.GridCellsNoDups | app/staff-zones/page.tsx:72-73 | distinct zone ids give a grid with no cell twice |
| StaffZones.SaveMakesRulesMatchMatrix | app/staff-zones/page.tsx:72-91 | after a save, a grid cell has a rule iff it is checked, with the selected staff member and the chosen times. Cells outside the grid keep their rules |
| StaffZones.SettledCellsNeedNothing | app/staff-zones/page.tsx:74-89 | cells that already agree with the matrix and times need no request |
| StaffZones.SaveIsIdempotent | app/staff-zones/page.tsx:72-91 | saving again right after a save, with nothing edited, sends no request |

## Left out

- Network and UI plumbing: `fetch`, `Promise.all`, React state and effect scheduling, JSX and styles. Fetched data are inputs.
- dayjs time-zone conversion and `Intl`/`toLocale*` formatting. Times are already Europe/Paris wall-clock minutes, so daylight-saving transitions are not modelled.
- `crypto.randomUUID()` idempotency keys, being random.
- The other screens: `app/admin/page.tsx`, `app/admin/reminders/page.tsx`, `app/components/PinGate.tsx` and `app/layout.tsx`. They hold no booking rule.
- Lower-casing is ASCII only. JavaScript's `toLowerCase` also folds non-ASCII letters, so two addresses differing only in a non-ASCII letter's case count as distinct here. The `/visio/i` test is exact, since case-insensitive matching of the ASCII word "visio" only involves ASCII letters.
- StaffView.NumberOf: reads blank text and optionally signed decimal integers only. Hexadecimal, exponent, fractional and `Infinity` forms read as not-a-number here, though JavaScript accepts them. The select only renders integer ids.
- `Number(b.staff_id) === Number(cid)` in the visio check: a booking with no staff id never matches a candidate. `Number(null)` is 0, which would match a candidate id 0, and that case is not modelled.
- BookingModal.PreValidate: the sort of the half-day's physical bookings is not modelled. Only their count, and the single booking when there is one, are used.
- CalendarWeek.SortByStart: the sort is an insertion sort that keeps equal starts in input order, as JavaScript's stable sort does. Stability itself is not stated.
- BookingModal.ZoneOptions: no contract of its own. Its behaviour is stated by `OverlapLock`, `HalfDayLock` and `Unlocked`, and by `DefaultOptions`. The `try`/`catch` around the locks only guards dayjs calls, and the model takes them not to throw. They need only the `utc` and `timezone` plugins, which app/page.tsx:9-10 registers.
- CalendarWeek.SlotsForHour: the loop calls `dayjs.max`, `dayjs.min` and `isSameOrBefore` (app/page.tsx:292-295). These come from dayjs's `minMax` and `isSameOrBefore` plugins, and none of the files here registers them: app/page.tsx:9-10 extends only `utc` and `timezone`. The model gives the calls their plugin meaning. As written, the loop would throw as soon as an availability overlaps the hour, unless a file outside this model registers the plugins. The same holds for `CutSlots`, `IntervalSlots`, `IntervalSlotSound`, `IntervalsSlotsSound`, `StaffSlotsSound` and `SlotsForHourComplete`.
- StaffZones.SaveMakesRulesMatchMatrix: models a save's effect on the staff member's rules as `existingMap` shows them, one rule per cell. It assumes stored ids are positive and distinct and zone ids are distinct. With two stored rules for one cell, deleting the later one would expose the earlier; that is not modelled. A created rule gets id 0, because the store assigns the real id.
- StaffZones.CaptureTimes: the comment in the source speaks of capturing the first times found. The code calls the setter once per rule, so the last non-empty time wins, and that is what is modelled.
- The staff-zones page's staff select (`Number(e.target.value)`) is not modelled: it only picks which staff member's rules are shown.
- The key `${zone_id}-${weekday}` is modelled as the pair itself. For integer zone ids and weekdays 0 to 6 the string is determined by the pair and determines it.

=== FILE: base.dfy ===
/** Shared vocabulary: optional values and the JavaScript truthiness of an
    optional number, which the pages use for ids (`staffId || …`, `if (!zid)`). */
module Base {

  /** An optional value: `undefined` in the pages becomes `None`. */
  datatype Option<+T> = None | Some(value: T) {

    /** The value, or `default` when absent (`x ?? default`). */
    function GetOr(default: T): T {
      match this
      case Some(v) => v
      case None => default
    }
  }

  /** JavaScript truthiness of an optional number: `undefined` and `0` are falsy. */
  predicate Truthy(o: Option<int>) {
    o.Some? && o.value != 0
  }

  /** `a ?? b`: the first present value. */
  function OrElse<T>(a: Option<T>, b: Option<T>): Option<T> {
    if a.Some? then a else b
  }
}

=== FILE: booking_modal.dfy ===
/** The calendar's booking modal (app/components/BookingModal.tsx): which
    zone names a slot may be booked under, which staff may take it, the
    client-side capacity and spacing checks, and the gate before `POST /book`. */
module BookingModal {
  import opened Base
  import opened Seqs
  import opened Text
  import opened Clock
  import opened Domain
  import opened BookingPayload

  /** Minimum minutes between a staff member's previous booking and a visio, when no setting says otherwise. */
  const DefaultVisioGap := 15
  /** Minimum minutes between the end of the first physical booking of a half-day and the second. */
  const DefaultPhysicalSecondGap := 90

  // ---------------------------------------------------------------------
  // Zone options

  /** A physical booking strictly overlapping the slot: `bStart < sEnd && bEnd > sStart`. */
  predicate PhysicalOverlap(b: Booking, slot: Slot) {
    IsPhysical(b) && StrictOverlap(b.start, b.end, slot.start, slot.end)
  }

  /** A physical booking starting on the slot's day, in the same half of it. */
  predicate PhysicalSameHalfDay(b: Booking, slot: Slot) {
    IsPhysical(b) && SameHalfDay(b.start, slot.start)
  }

  function OverlapsSlot(slot: Slot): Booking -> bool {
    b => PhysicalOverlap(b, slot)
  }

  function SharesHalfDay(slot: Slot): Booking -> bool {
    b => PhysicalSameHalfDay(b, slot)
  }

  /** `b.zone_id || b.zone`: the booking names a zone. */
  predicate HasZone(b: Booking) {
    Truthy(b.zoneId) || b.zone != ""
  }

  function HasId(id: int): Zone -> bool {
    (z: Zone) => z.id == id
  }

  /** `zonesList.find(z => z.id === id)?.name`, with `''` when there is none. */
  function ZoneNameById(zones: seq<Zone>, id: int): string {
    match FindIndex(HasId(id), zones)
    case Some(i) => zones[i].name
    case None => ""
  }

  /** The zone a booking locks the slot to:
      `(b.zone_id ? <name of zone b.zone_id> : b.zone) || slot.zone`. */
  function LockedZoneName(b: Booking, zones: seq<Zone>, slot: Slot): string {
    var name := if Truthy(b.zoneId) then ZoneNameById(zones, b.zoneId.value) else b.zone;
    if name != "" then name else slot.zone
  }

  /** `name ? [name] : []`. */
  function LockedOptions(name: string): seq<string> {
    if name != "" then [name] else []
  }

  /** The staff the default options are computed for: `staffId || slot.available_staff_ids[0]`. */
  function OptionsStaff(staffId: Option<int>, slot: Slot): Option<int> {
    if Truthy(staffId) then staffId
    else if |slot.availableStaffIds| > 0 then Some(slot.availableStaffIds[0])
    else None
  }

  /** Some staff-zone link ties staff `sid` to zone `zoneId`. */
  predicate Serves(staffZones: seq<StaffZone>, sid: Option<int>, zoneId: int) {
    exists x :: x in staffZones && Some(x.staffId) == sid && x.zoneId == zoneId
  }

  function ServedBy(staffZones: seq<StaffZone>, sid: Option<int>): Zone -> bool {
    (z: Zone) => Serves(staffZones, sid, z.id)
  }

  function ZoneNameOf(z: Zone): string {
    z.name
  }

  predicate NotVisio(name: string) {
    !MentionsVisio(name)
  }

  /** Step 3 of `zoneOptions`: the names of the zones linked to `sid`, else the
      slot's own zone, without visio zones for a physical meeting. */
  function DefaultOptions(slot: Slot, staffZones: seq<StaffZone>, zones: seq<Zone>,
                          sid: Option<int>, isVisio: bool): (r: seq<string>)
    ensures !isVisio ==> forall n :: n in r ==> !MentionsVisio(n)
    ensures forall n :: n in r ==>
              (exists z :: z in zones && Serves(staffZones, sid, z.id) && z.name == n)
              || (n == slot.zone && slot.zone != "" && forall z :: z in zones ==> !Serves(staffZones, sid, z.id))
    ensures forall z :: (z in zones && Serves(staffZones, sid, z.id)
                         && (isVisio || !MentionsVisio(z.name))) ==> z.name in r
    ensures ((forall z :: z in zones ==> !Serves(staffZones, sid, z.id))
             && slot.zone != "" && (isVisio || !MentionsVisio(slot.zone))) ==> r == [slot.zone]
    ensures ((forall z :: z in zones ==> !Serves(staffZones, sid, z.id)) && slot.zone == "") ==> r == []
  {
    var linked := Filter(ServedBy(staffZones, sid), zones);
    var names := MapSeq(ZoneNameOf, linked);
    assert forall n :: n in names ==> exists z :: z in linked && z.name == n by {
      forall n | n in names ensures exists z :: z in linked && z.name == n {
        var k :| 0 <= k < |names| && names[k] == n;
        assert linked[k] in linked;
      }
    }
    assert forall z :: z in linked ==> z.name in names by {
      forall z | z in linked ensures z.name in names {
        var k :| 0 <= k < |linked| && linked[k] == z;
        assert names[k] == z.name;
      }
    }
    var names' := if |names| == 0 && slot.zone != "" then [slot.zone] else names;
    if isVisio then names' else Filter(NotVisio, names')
  }

  /** `i` is the index `bookings.find` stops at for the overlap lock. */
  ghost predicate FirstOverlap(bookings: seq<Booking>, slot: Slot, i: int) {
    && 0 <= i < |bookings|
    && PhysicalOverlap(bookings[i], slot)
    && forall j :: 0 <= j < i ==> !PhysicalOverlap(bookings[j], slot)
  }

  /** `i` is the index `bookings.find` stops at for the half-day lock. */
  ghost predicate FirstSameHalfDay(bookings: seq<Booking>, slot: Slot, i: int) {
    && 0 <= i < |bookings|
    && PhysicalSameHalfDay(bookings[i], slot)
    && forall j :: 0 <= j < i ==> !PhysicalSameHalfDay(bookings[j], slot)
  }

  /** No overlap lock: the first overlapping physical booking, if any, names no zone. */
  ghost predicate NoOverlapLock(bookings: seq<Booking>, slot: Slot) {
    forall i :: FirstOverlap(bookings, slot, i) ==> !HasZone(bookings[i])
  }

  /** No half-day lock: the first physical booking of the half-day, if any, names no zone. */
  ghost predicate NoHalfDayLock(bookings: seq<Booking>, slot: Slot) {
    forall i :: FirstSameHalfDay(bookings, slot, i) ==> !HasZone(bookings[i])
  }

  /** The options are the single locked zone name, or none when that name is empty. */
  ghost predicate LockedTo(r: seq<string>, name: string) {
    && |r| <= 1
    && (forall n :: n in r ==> n == name)
    && (name != "" ==> r == [name])
    && (name == "" ==> r == [])
  }

  /** The staff preselected when the modal opens: the slot's only staff member, if it has exactly one. */
  function InitialStaff(slot: Slot): (r: Option<int>)
    ensures r.Some? <==> |slot.availableStaffIds| == 1
    ensures r.Some? ==> slot.availableStaffIds == [r.value]
  {
    if |slot.availableStaffIds| == 1 then Some(slot.availableStaffIds[0]) else None
  }

  /** Preselecting the only staff member leaves the staff a visio is checked for unchanged. */
  lemma InitialStaffKeepsCandidates(slot: Slot)
    ensures VisioCandidates(InitialStaff(slot), slot) == slot.availableStaffIds
  {
  }

  /** `zoneOptions`: the zone names the slot may be booked under. */
  function ZoneOptions(slot: Slot, bookings: seq<Booking>, staffZones: seq<StaffZone>,
                       zones: seq<Zone>, staffId: Option<int>, isVisio: bool): seq<string>
  {
    var o := FindIndex(OverlapsSlot(slot), bookings);
    if o.Some? && HasZone(bookings[o.value]) then
      LockedOptions(LockedZoneName(bookings[o.value], zones, slot))
    else
      var h := FindIndex(SharesHalfDay(slot), bookings);
      if h.Some? && HasZone(bookings[h.value]) then
        LockedOptions(LockedZoneName(bookings[h.value], zones, slot))
      else
        DefaultOptions(slot, staffZones, zones, OptionsStaff(staffId, slot), isVisio)
  }

  /** A physical booking overlapping the slot locks it to that booking's zone. */
  lemma OverlapLock(slot: Slot, bookings: seq<Booking>, staffZones: seq<StaffZone>,
                    zones: seq<Zone>, staffId: Option<int>, isVisio: bool, i: int)
    requires FirstOverlap(bookings, slot, i) && HasZone(bookings[i])
    ensures LockedTo(ZoneOptions(slot, bookings, staffZones, zones, staffId, isVisio),
                     LockedZoneName(bookings[i], zones, slot))
  {
    FindIndexFirst(OverlapsSlot(slot), bookings, i);
    assert ZoneOptions(slot, bookings, staffZones, zones, staffId, isVisio)
           == LockedOptions(LockedZoneName(bookings[i], zones, slot));
  }

  /** Without an overlap lock, a physical booking of the same half-day locks the slot to its zone. */
  lemma HalfDayLock(slot: Slot, bookings: seq<Booking>, staffZones: seq<StaffZone>,
                    zones: seq<Zone>, staffId: Option<int>, isVisio: bool, i: int)
    requires NoOverlapLock(bookings, slot)
    requires FirstSameHalfDay(bookings, slot, i) && HasZone(bookings[i])
    ensures LockedTo(ZoneOptions(slot, bookings, staffZones, zones, staffId, isVisio),
                     LockedZoneName(bookings[i], zones, slot))
  {
    var o := FindIndex(OverlapsSlot(slot), bookings);
    if o.Some? {
      assert FirstOverlap(bookings, slot, o.value);
    }
    FindIndexFirst(SharesHalfDay(slot), bookings, i);
    assert ZoneOptions(slot, bookings, staffZones, zones, staffId, isVisio)
           == LockedOptions(LockedZoneName(bookings[i], zones, slot));
  }

  /** With no lock, the options are the zones of the chosen staff member, or
      else of the slot's first staff member. */
  lemma Unlocked(slot: Slot, bookings: seq<Booking>, staffZones: seq<StaffZone>,
                 zones: seq<Zone>, staffId: Option<int>, isVisio: bool)
    requires NoOverlapLock(bookings, slot) && NoHalfDayLock(bookings, slot)
    ensures ZoneOptions(slot, bookings, staffZones, zones, staffId, isVisio)
            == DefaultOptions(slot, staffZones, zones, OptionsStaff(staffId, slot), isVisio)
  {
    var o := FindIndex(OverlapsSlot(slot), bookings);
    if o.Some? {
      assert FirstOverlap(bookings, slot, o.value);
    }
    var h := FindIndex(SharesHalfDay(slot), bookings);
    if h.Some? {
      assert FirstSameHalfDay(bookings, slot, h.value);
    }
  }

  // ---------------------------------------------------------------------
  // Staff allowed for the chosen zone

  function NamedAs(name: string): Zone -> bool {
    (z: Zone) => z.name == name
  }

  /** Some staff-zone link ties staff `id` to zone `zid`. */
  predicate LinkedTo(staffZones: seq<StaffZone>, id: int, zid: int) {
    exists x :: x in staffZones && x.zoneId == zid && x.staffId == id
  }

  function LinkedToZone(staffZones: seq<StaffZone>, zid: int): int -> bool {
    id => LinkedTo(staffZones, id, zid)
  }

  /** `i` is the zone `zonesList.find(z => z.name === zoneName)` returns. */
  ghost predicate FirstNamed(zones: seq<Zone>, name: string, i: int) {
    0 <= i < |zones| && zones[i].name == name && forall j :: 0 <= j < i ==> zones[j].name != name
  }

  /** `allowedStaffIds`: the slot's staff who may serve the chosen zone. */
  function AllowedStaffIds(slot: Slot, isVisio: bool, zoneName: string,
                           zones: seq<Zone>, staffZones: seq<StaffZone>): (r: seq<int>)
    ensures IsSubseq(r, slot.availableStaffIds)
    ensures isVisio || zoneName == "" ==> r == slot.availableStaffIds
    ensures !isVisio && zoneName != "" && (forall z :: z in zones ==> z.name != zoneName) ==> r == []
    ensures forall i :: !isVisio && zoneName != "" && FirstNamed(zones, zoneName, i) ==>
              forall id :: id in r <==> (id in slot.availableStaffIds && zones[i].id != 0
                                       && LinkedTo(staffZones, id, zones[i].id))
  {
    if isVisio || zoneName == "" then
      SubseqRefl(slot.availableStaffIds);
      slot.availableStaffIds
    else
      match FindIndex(NamedAs(zoneName), zones)
      case None => []
      case Some(i) =>
        if zones[i].id == 0 then []
        else Filter(LinkedToZone(staffZones, zones[i].id), slot.availableStaffIds)
  }

  /** The effect that resets a selected staff member the chosen zone does not allow. */
  function ResetStaff(isVisio: bool, zoneName: string, staffId: Option<int>, allowed: seq<int>): (r: Option<int>)
    ensures isVisio || zoneName == "" || !Truthy(staffId) ==> r == staffId
    ensures Truthy(staffId) && staffId.value in allowed ==> r == staffId
    ensures !isVisio && zoneName != "" && Truthy(r) ==> r.value in allowed
    ensures !isVisio && zoneName != "" && Truthy(staffId) && staffId.value !in allowed ==>
              r == if |allowed| > 0 then Some(allowed[0]) else None
  {
    if isVisio || zoneName == "" then staffId
    else if Truthy(staffId) && staffId.value !in allowed then
      (if |allowed| > 0 then Some(allowed[0]) else None)
    else staffId
  }

  /** Running the reset effect again changes nothing. */
  lemma ResetStaffIdempotent(isVisio: bool, zoneName: string, staffId: Option<int>, allowed: seq<int>)
    ensures var r := ResetStaff(isVisio, zoneName, staffId, allowed);
            ResetStaff(isVisio, zoneName, r, allowed) == r
  {
  }

  // ---------------------------------------------------------------------
  // Client-side validation

  /** Why `preValidate` refuses a booking. */
  datatype Rejection =
    | VisioTooClose(gap: int)                 // a visio too soon after the staff's previous booking
    | CapacityReached                          // two physical bookings already in the half-day
    | PhysicalTooClose(gap: int, required: int) // second physical booking too soon after the first

  /** `demo_visio_min_gap_min ?? demo_visio_buffer_after_min ?? 15`. */
  function VisioGap(settings: Settings): int {
    OrElse(settings.demoVisioMinGapMin, settings.demoVisioBufferAfterMin).GetOr(DefaultVisioGap)
  }

  /** `demo_physique_second_min_gap_min ?? 90`. */
  function PhysicalSecondGap(settings: Settings): int {
    settings.demoPhysiqueSecondMinGapMin.GetOr(DefaultPhysicalSecondGap)
  }

  /** The staff a visio is checked for: the chosen one, else all the slot's staff. */
  function VisioCandidates(staffId: Option<int>, slot: Slot): seq<int> {
    if Truthy(staffId) then [staffId.value] else slot.availableStaffIds
  }

  function OnSlotDay(slot: Slot): Booking -> bool {
    (b: Booking) => Day(b.start) == Day(slot.start)
  }

  /** A booking of staff `cid` ending in `(start - gap, start]`. */
  predicate EndsJustBefore(b: Booking, cid: int, start: int, gap: int) {
    b.staffId == Some(cid) && start - gap < b.end <= start
  }

  function EndsJustBeforeFor(cid: int, start: int, gap: int): Booking -> bool {
    b => EndsJustBefore(b, cid, start, gap)
  }

  function BusyBefore(dayBookings: seq<Booking>, start: int, gap: int): int -> bool {
    cid => Any(dayBookings, EndsJustBeforeFor(cid, start, gap))
  }

  /** A candidate is busy when some booking of that day of theirs ends less than `gap` before the slot. */
  lemma BusyBeforeMeaning(slot: Slot, bookings: seq<Booking>, gap: int)
    ensures forall c :: BusyBefore(Filter(OnSlotDay(slot), bookings), slot.start, gap)(c) <==>
              exists b :: b in bookings && Day(b.start) == Day(slot.start) && EndsJustBefore(b, c, slot.start, gap)
  {
    var dayBookings := Filter(OnSlotDay(slot), bookings);
    forall c ensures BusyBefore(dayBookings, slot.start, gap)(c) <==>
              exists b :: b in bookings && Day(b.start) == Day(slot.start) && EndsJustBefore(b, c, slot.start, gap)
    {
      if BusyBefore(dayBookings, slot.start, gap)(c) {
        var k :| 0 <= k < |dayBookings| && EndsJustBeforeFor(c, slot.start, gap)(dayBookings[k]);
        assert dayBookings[k] in dayBookings;
      }
      if exists b :: b in bookings && Day(b.start) == Day(slot.start) && EndsJustBefore(b, c, slot.start, gap) {
        var b :| b in bookings && Day(b.start) == Day(slot.start) && EndsJustBefore(b, c, slot.start, gap);
        assert b in dayBookings;
        var k :| 0 <= k < |dayBookings| && dayBookings[k] == b;
        assert EndsJustBeforeFor(c, slot.start, gap)(dayBookings[k]);
      }
    }
  }

  /** Every visio candidate has a booking that day ending less than the gap before the slot. */
  ghost predicate VisioBlocked(slot: Slot, bookings: seq<Booking>, settings: Settings, staffId: Option<int>) {
    var cids := VisioCandidates(staffId, slot);
    && |cids| > 0
    && forall c :: c in cids ==>
         exists b :: b in bookings && Day(b.start) == Day(slot.start)
                     && EndsJustBefore(b, c, slot.start, VisioGap(settings))
  }

  /** The `every`/`some` test of `preValidate` decides exactly `VisioBlocked`. */
  lemma VisioBlockedMeaning(slot: Slot, bookings: seq<Booking>, settings: Settings, staffId: Option<int>)
    ensures var cids := VisioCandidates(staffId, slot);
            VisioBlocked(slot, bookings, settings, staffId) <==>
            |cids| > 0 && All(cids, BusyBefore(Filter(OnSlotDay(slot), bookings), slot.start, VisioGap(settings)))
  {
    var cids := VisioCandidates(staffId, slot);
    var p := BusyBefore(Filter(OnSlotDay(slot), bookings), slot.start, VisioGap(settings));
    BusyBeforeMeaning(slot, bookings, VisioGap(settings));
    if VisioBlocked(slot, bookings, settings, staffId) {
      forall i | 0 <= i < |cids| ensures p(cids[i]) {
        assert cids[i] in cids;
      }
    }
  }

  /** `preValidate`: `None` when the booking may be attempted, else the reason it may not. */
  function PreValidate(slot: Slot, bookings: seq<Booking>, settings: Settings,
                       staffId: Option<int>, isVisio: bool): (r: Option<Rejection>)
    ensures isVisio ==> (r.Some? <==> VisioBlocked(slot, bookings, settings, staffId))
    ensures isVisio && r.Some? ==> r.value == VisioTooClose(VisioGap(settings))
    ensures !isVisio && r.Some? ==> r.value.CapacityReached? || r.value.PhysicalTooClose?
    ensures !isVisio && (forall i :: 0 <= i < |bookings| ==> !PhysicalSameHalfDay(bookings[i], slot)) ==> r.None?
  {
    if isVisio then
      var dayBookings := Filter(OnSlotDay(slot), bookings);
      var cids := VisioCandidates(staffId, slot);
      var gap := VisioGap(settings);
      VisioBlockedMeaning(slot, bookings, settings, staffId);
      if |cids| > 0 && All(cids, BusyBefore(dayBookings, slot.start, gap)) then Some(VisioTooClose(gap))
      else None
    else
      // dayBookings.filter(physique).filter(same half-day), as one filter
      var physHalf := Filter(SharesHalfDay(slot), bookings);
      FilterEmptyIff(SharesHalfDay(slot), bookings);
      if |physHalf| >= 2 then Some(CapacityReached)
      else if |physHalf| == 1 && slot.start > physHalf[0].end then
        var gap := slot.start - physHalf[0].end;
        if gap < PhysicalSecondGap(settings) then Some(PhysicalTooClose(gap, PhysicalSecondGap(settings)))
        else None
      else None
  }

  /** Two physical bookings in the slot's half-day, whoever's they are, refuse a physical booking. */
  lemma PhysicalCapacity(slot: Slot, bookings: seq<Booking>, settings: Settings, staffId: Option<int>, i: int, j: int)
    requires 0 <= i < j < |bookings|
    requires PhysicalSameHalfDay(bookings[i], slot) && PhysicalSameHalfDay(bookings[j], slot)
    ensures PreValidate(slot, bookings, settings, staffId, false) == Some(CapacityReached)
  {
    FilterKeepsTwo(SharesHalfDay(slot), bookings, i, j);
  }

  /** With exactly one physical booking in the half-day, a later start must
      leave at least the physical second gap after it; an earlier or touching start is not checked. */
  lemma PhysicalSpacing(slot: Slot, bookings: seq<Booking>, settings: Settings, staffId: Option<int>, i: int)
    requires 0 <= i < |bookings| && PhysicalSameHalfDay(bookings[i], slot)
    requires forall k :: 0 <= k < |bookings| && k != i ==> !PhysicalSameHalfDay(bookings[k], slot)
    ensures var r := PreValidate(slot, bookings, settings, staffId, false);
            var gap := slot.start - bookings[i].end;
            && (r.Some? <==> slot.start > bookings[i].end && gap < PhysicalSecondGap(settings))
            && (r.Some? ==> r.value == PhysicalTooClose(gap, PhysicalSecondGap(settings)))
  {
    FilterKeepsOnly(SharesHalfDay(slot), bookings, i);
  }

  // ---------------------------------------------------------------------
  // Booking

  function MentionsVisioZone(z: Zone): bool {
    MentionsVisio(z.name)
  }

  /** `i` is the zone `zonesList.find(z => /visio/i.test(z.name))` returns. */
  ghost predicate FirstVisio(zones: seq<Zone>, i: int) {
    && 0 <= i < |zones|
    && MentionsVisio(zones[i].name)
    && forall j :: 0 <= j < i ==> !MentionsVisio(zones[j].name)
  }

  /** The zone a visio is sent under: the first zone whose name mentions visio,
      else the slot's zone, else the first zone's name, else `''`. */
  function VisioDefaultZone(zones: seq<Zone>, slot: Slot): (r: string)
    ensures (exists z :: z in zones && MentionsVisio(z.name)) ==> MentionsVisio(r) && exists z :: z in zones && z.name == r
    ensures forall i :: FirstVisio(zones, i) ==> r == zones[i].name
    ensures (forall z :: z in zones ==> !MentionsVisio(z.name)) ==>
              r == if slot.zone != "" then slot.zone else if |zones| > 0 then zones[0].name else ""
  {
    var found := FindIndex(MentionsVisioZone, zones);
    if found.Some? && zones[found.value].name != "" then zones[found.value].name
    else if slot.zone != "" then slot.zone
    else if |zones| > 0 && zones[0].name != "" then zones[0].name
    else ""
  }

  /** `zone_name` of the request: the visio default for a visio, the chosen zone otherwise. */
  function PayloadZone(isVisio: bool, zoneName: string, zones: seq<Zone>, slot: Slot): string {
    if isVisio then VisioDefaultZone(zones, slot) else zoneName
  }

  /** What `book()` does: record the refusal, or send the request. */
  datatype BookResult = Refused(reason: Rejection) | Sent(request: BookingRequest)

  /** `book()`: nothing is sent when `preValidate` objects. */
  function Book(slot: Slot, bookings: seq<Booking>, settings: Settings, zones: seq<Zone>,
                form: BookingForm, zoneName: string): (r: BookResult)
    ensures var v := PreValidate(slot, bookings, settings, form.staffId, form.isVisio);
            && (r.Refused? <==> v.Some?)
            && (r.Refused? ==> r.reason == v.value)
    ensures r.Sent? ==> r.request.zoneName == PayloadZone(form.isVisio, zoneName, zones, slot)
    ensures r.Sent? ==> r.request == BuildRequest(slot, form, r.request.zoneName)
  {
    match PreValidate(slot, bookings, settings, form.staffId, form.isVisio)
    case Some(reason) => Refused(reason)
    case None => Sent(BuildRequest(slot, form, PayloadZone(form.isVisio, zoneName, zones, slot)))
  }
}

=== FILE: booking_payload.dfy ===
/** The body of a `POST /book` request, shared by the calendar's booking
    modal and the staff page's: the comma-separated invitee field, the
    case-insensitive de-duplication of attendee e-mails, and the optional keys. */
module BookingPayload {
  import opened Base
  import opened Seqs
  import opened Text
  import opened Domain

  /** `att.split(',').map(s => s.trim()).filter(Boolean)`. */
  function Invitees(att: string): (r: seq<string>)
    ensures forall x :: x in r ==> x != "" && IsTrimmed(x) && ',' !in x
    ensures forall x :: x in r <==> x != "" && exists p :: p in Split(att, ',') && Trim(p) == x
  {
    TrimmedPieces(Split(att, ','));
    Filter(NonEmpty, MapSeq(Trim, Split(att, ',')))
  }

  /** Trimming comma-free pieces gives trimmed, comma-free strings, each the trim of some piece. */
  lemma TrimmedPieces(pieces: seq<string>)
    requires forall i :: 0 <= i < |pieces| ==> ',' !in pieces[i]
    ensures forall x :: x in MapSeq(Trim, pieces) ==> IsTrimmed(x) && ',' !in x
    ensures forall x :: x in MapSeq(Trim, pieces) <==> exists p :: p in pieces && Trim(p) == x
  {
    var t := MapSeq(Trim, pieces);
    forall x | x in t ensures IsTrimmed(x) && ',' !in x && exists p :: p in pieces && Trim(p) == x {
      var k :| 0 <= k < |t| && t[k] == x;
      TrimExcludes(pieces[k], ',');
      assert pieces[k] in pieces;
    }
    forall x | exists p :: p in pieces && Trim(p) == x ensures x in t {
      var p :| p in pieces && Trim(p) == x;
      var k :| 0 <= k < |pieces| && pieces[k] == p;
      assert t[k] == x;
    }
  }

  /** Trimming adds no character. */
  lemma TrimExcludes(p: string, c: char)
    requires c !in p
    ensures c !in Trim(p)
  {
    var r := Trim(p);
    var i :| 0 <= i <= |p| - |r| && StrippedAt(p, r, i);
    assert r == p[i..i + |r|];
  }

  /** `Boolean` on a string. */
  predicate NonEmpty(s: string) {
    s != ""
  }

  /** A comma-separated list typed into the invitee field. */
  function CommaList(xs: seq<string>): string {
    if xs == [] then "" else Join(xs, ',')
  }

  /** Typing a list of non-empty, trimmed, comma-free addresses separated by
      commas gives exactly that list back as invitees. */
  lemma InviteesRoundTrip(xs: seq<string>)
    requires forall i :: 0 <= i < |xs| ==> xs[i] != "" && IsTrimmed(xs[i]) && ',' !in xs[i]
    ensures Invitees(CommaList(xs)) == xs
  {
    if xs != [] {
      SplitJoin(xs, ',');
      forall i | 0 <= i < |xs| ensures Trim(xs[i]) == xs[i] {
        TrimOfTrimmed(xs[i]);
      }
      assert MapSeq(Trim, xs) == xs;
      FilterAllKept(xs);
    } else {
      assert Split("", ',') == [""];
      assert Trim("") == "";
    }
  }

  /** Filtering out empty strings keeps a list of non-empty strings whole. */
  lemma {:induction false} FilterAllKept(xs: seq<string>)
    requires forall i :: 0 <= i < |xs| ==> xs[i] != ""
    ensures Filter(NonEmpty, xs) == xs
  {
    if xs != [] {
      FilterAllKept(xs[1..]);
    }
  }

  /** `[...(email ? [email] : []), ...invitees]`. */
  function Candidates(email: string, invitees: seq<string>): (r: seq<string>)
    ensures email != "" ==> |r| == |invitees| + 1 && r[0] == email && r[1..] == invitees
    ensures email == "" ==> r == invitees
  {
    (if email != "" then [email] else []) + invitees
  }

  /** Two addresses are the same attendee when they agree ignoring case. */
  predicate SameAddress(a: string, b: string) {
    Lower(a) == Lower(b)
  }

  /** No two entries are the same attendee. */
  ghost predicate DistinctAddresses(s: seq<string>) {
    forall i, j :: 0 <= i < j < |s| ==> !SameAddress(s[i], s[j])
  }

  /** The lower-cased keys of `s`: the `seen` set after visiting `s`. */
  function Keys(s: seq<string>): set<string> {
    if |s| == 0 then {} else Keys(s[..|s| - 1]) + {Lower(s[|s| - 1])}
  }

  /** The `filter` with a `seen` set: keeps an address unless its lower-cased
      key was seen before, then records the key. */
  function DedupFrom(emails: seq<string>, seen: set<string>): seq<string> {
    if |emails| == 0 then []
    else
      var k := Lower(emails[0]);
      if k in seen then DedupFrom(emails[1..], seen)
      else [emails[0]] + DedupFrom(emails[1..], seen + {k})
  }

  /** What the `seen`-set filter guarantees: an order-preserving sub-list,
      with no address already seen, no address twice, and every unseen
      address of the input represented. */
  lemma {:induction false} DedupFromSound(emails: seq<string>, seen: set<string>)
    ensures var r := DedupFrom(emails, seen);
      && IsSubseq(r, emails)
      && (forall i :: 0 <= i < |r| ==> Lower(r[i]) !in seen)
      && DistinctAddresses(r)
      && (forall i :: 0 <= i < |emails| && Lower(emails[i]) !in seen ==>
            exists j :: 0 <= j < |r| && SameAddress(r[j], emails[i]))
  {
    if |emails| > 0 {
      var k := Lower(emails[0]);
      assert forall i :: 1 <= i < |emails| ==> emails[i] == emails[1..][i - 1];
      if k in seen {
        DedupFromSound(emails[1..], seen);
      } else {
        DedupFromSound(emails[1..], seen + {k});
      }
    }
  }

  /** The attendee list: `emails` without later repeats of an address. */
  function Dedup(emails: seq<string>): (r: seq<string>)
    ensures IsSubseq(r, emails)
    ensures DistinctAddresses(r)
    ensures forall i :: 0 <= i < |emails| ==> exists j :: 0 <= j < |r| && SameAddress(r[j], emails[i])
  {
    DedupFromSound(emails, {});
    DedupFrom(emails, {})
  }

  /** Reference definition: the entries of `s` with no earlier entry for the same address. */
  function FirstOccurrences(s: seq<string>): seq<string> {
    if |s| == 0 then []
    else
      var last := s[|s| - 1];
      FirstOccurrences(s[..|s| - 1]) + (if Lower(last) in Keys(s[..|s| - 1]) then [] else [last])
  }

  /** De-duplication keeps exactly the first occurrence of every address, in order. */
  lemma DedupKeepsFirstOccurrences(emails: seq<string>)
    ensures DedupFrom(emails, {}) == FirstOccurrences(emails)
    ensures Dedup(emails) == FirstOccurrences(emails)
  {
    DedupAfter([], emails);
    assert [] + emails == emails;
  }

  /** Processing `e` after a prefix `p` adds exactly the first occurrences `e` contributes. */
  lemma {:induction false} DedupAfter(p: seq<string>, e: seq<string>)
    ensures FirstOccurrences(p + e) == FirstOccurrences(p) + DedupFrom(e, Keys(p))
    decreases |e|
  {
    if |e| == 0 {
      assert p + e == p;
      assert DedupFrom(e, Keys(p)) == [];
    } else {
      var p' := p + [e[0]];
      var kept: seq<string> := if Lower(e[0]) in Keys(p) then [] else [e[0]];
      var rest := DedupFrom(e[1..], Keys(p) + {Lower(e[0])});
      calc {
        FirstOccurrences(p + e);
        { assert p' + e[1..] == p + e; }
        FirstOccurrences(p' + e[1..]);
        { DedupAfter(p', e[1..]); }
        FirstOccurrences(p') + DedupFrom(e[1..], Keys(p'));
        { FirstOccurrencesSnoc(p, e[0]); KeysSnoc(p, e[0]); }
        (FirstOccurrences(p) + kept) + rest;
        FirstOccurrences(p) + (kept + rest);
        { DedupFromStep(e, Keys(p)); }
        FirstOccurrences(p) + DedupFrom(e, Keys(p));
      }
    }
  }

  /** The keys after one more address are the old keys and its own. */
  lemma KeysSnoc(p: seq<string>, x: string)
    ensures Keys(p + [x]) == Keys(p) + {Lower(x)}
  {
    assert (p + [x])[..|p|] == p;
  }

  /** One more address after `p` is kept exactly when its key is new. */
  lemma FirstOccurrencesSnoc(p: seq<string>, x: string)
    ensures FirstOccurrences(p + [x]) == FirstOccurrences(p) + (if Lower(x) in Keys(p) then [] else [x])
  {
    assert (p + [x])[..|p|] == p;
  }

  /** One step of the `seen`-set filter. */
  lemma DedupFromStep(e: seq<string>, seen: set<string>)
    requires |e| > 0
    ensures DedupFrom(e, seen) == (if Lower(e[0]) in seen then [] else [e[0]])
                                  + DedupFrom(e[1..], seen + {Lower(e[0])})
  {
    if Lower(e[0]) in seen {
      assert seen + {Lower(e[0])} == seen;
    }
  }

  /** The attendees of a booking: the client e-mail, when given, then the
      invitees, without repeated addresses. */
  function AttendeeList(email: string, att: string): (r: seq<string>)
    ensures email != "" ==> |r| > 0 && r[0] == email
    ensures DistinctAddresses(r)
    ensures forall x :: x in r ==> x == email || x in Invitees(att)
    ensures forall x :: x in Invitees(att) ==> exists j :: 0 <= j < |r| && SameAddress(r[j], x)
    ensures r == FirstOccurrences(Candidates(email, Invitees(att)))
  {
    var inv := Invitees(att);
    var c := Candidates(email, inv);
    DedupKeepsFirstOccurrences(c);
    CandidatesMembers(email, inv);
    DedupMembers(c);
    DedupCoversInvitees(email, inv);
    DedupHead(c);
    Dedup(c)
  }

  /** The candidates are the e-mail, when given, and the invitees. */
  lemma CandidatesMembers(email: string, invitees: seq<string>)
    ensures forall x :: x in Candidates(email, invitees) <==> (email != "" && x == email) || x in invitees
  {
  }

  /** The first address is always kept. */
  lemma DedupHead(c: seq<string>)
    ensures |c| > 0 ==> |Dedup(c)| > 0 && Dedup(c)[0] == c[0]
  {
    if |c| > 0 {
      DedupFromStep(c, {});
    }
  }

  /** Every kept address comes from the input. */
  lemma DedupMembers(c: seq<string>)
    ensures forall x :: x in Dedup(c) ==> x in c
  {
    forall x | x in Dedup(c) ensures x in c {
      SubseqMembers(Dedup(c), c, x);
    }
  }

  /** Every invitee is represented among the attendees. */
  lemma DedupCoversInvitees(email: string, invitees: seq<string>)
    ensures forall x :: x in invitees ==>
              exists j :: 0 <= j < |Dedup(Candidates(email, invitees))| && SameAddress(Dedup(Candidates(email, invitees))[j], x)
  {
    var c := Candidates(email, invitees);
    forall x | x in invitees ensures exists j :: 0 <= j < |Dedup(c)| && SameAddress(Dedup(c)[j], x) {
      var k :| 0 <= k < |invitees| && invitees[k] == x;
      InviteeCandidate(email, invitees, k);
      DedupCovers(c, |c| - |invitees| + k);
    }
  }

  /** The `k`-th invitee sits `|invitees| - k` places from the end of the candidates. */
  lemma InviteeCandidate(email: string, invitees: seq<string>, k: int)
    requires 0 <= k < |invitees|
    ensures var c := Candidates(email, invitees);
            |invitees| <= |c| && c[|c| - |invitees| + k] == invitees[k]
  {
    var c := Candidates(email, invitees);
    if email != "" {
      assert c[1..][k] == c[1 + k];
    }
  }

  /** Each input address is represented among the kept ones. */
  lemma DedupCovers(c: seq<string>, i: int)
    requires 0 <= i < |c|
    ensures exists j :: 0 <= j < |Dedup(c)| && SameAddress(Dedup(c)[j], c[i])
  {
    var r := Dedup(c);
    assert forall i :: 0 <= i < |c| ==> exists j :: 0 <= j < |r| && SameAddress(r[j], c[i]);
  }

  /** Every element of a sub-list is an element of the list. */
  lemma SubseqMembers<T>(a: seq<T>, b: seq<T>, x: T)
    requires IsSubseq(a, b) && x in a
    ensures x in b
    decreases |b|
  {
    if a[0] == b[0] && IsSubseq(a[1..], b[1..]) {
      if x != a[0] {
        assert x in a[1..];
        SubseqMembers(a[1..], b[1..], x);
      }
    } else {
      SubseqMembers(a, b[1..], x);
    }
  }

  /** The booking form's fields that reach the request. */
  datatype BookingForm = BookingForm(
    name: string, email: string, tel: string, notes: string, att: string,
    staffId: Option<int>, isVisio: bool, restaurant: string, city: string)

  /** The JSON body of `POST /book`; optional keys are `None` when omitted. */
  datatype BookingRequest = BookingRequest(
    slotStart: int, slotEnd: int, zoneName: string,
    clientName: string, clientEmail: string, clientPhone: string,
    summary: string, notes: string, attendees: seq<string>,
    meetingMode: MeetingMode,
    restaurantName: Option<string>, city: Option<string>, staffId: Option<int>)

  /** The body `book()` sends for `slot` under zone name `zoneName`. */
  function BuildRequest(slot: Slot, form: BookingForm, zoneName: string): (r: BookingRequest)
    ensures r.slotStart == slot.start && r.slotEnd == slot.end && r.zoneName == zoneName
    ensures r.clientName == form.name && r.clientEmail == form.email && r.clientPhone == form.tel
    ensures r.notes == form.notes && r.summary == "DÉMO DIGIRESA (" + form.name + ")"
    ensures r.meetingMode == Visio <==> form.isVisio
    ensures r.restaurantName.Some? <==> form.restaurant != ""
    ensures r.restaurantName.Some? ==> r.restaurantName.value == form.restaurant
    ensures r.city.Some? <==> form.city != ""
    ensures r.city.Some? ==> r.city.value == form.city
    ensures r.staffId.Some? <==> Truthy(form.staffId)
    ensures r.staffId.Some? ==> r.staffId == form.staffId
    ensures r.attendees == AttendeeList(form.email, form.att)
  {
    BookingRequest(
      slot.start, slot.end, zoneName,
      form.name, form.email, form.tel,
      "DÉMO DIGIRESA (" + form.name + ")", form.notes,
      AttendeeList(form.email, form.att),
      if form.isVisio then Visio else Physique,
      if form.restaurant != "" then Some(form.restaurant) else None,
      if form.city != "" then Some(form.city) else None,
      if Truthy(form.staffId) then form.staffId else None)
  }
}

=== FILE: calendar_week.dfy ===
/** The week calendar (app/page.tsx): week navigation, the normalisation of
    fetched bookings, the "now" line, and the free 30-minute slots drawn in
    each hour row from the staff's merged availability. */
module CalendarWeek {
  import opened Base
  import opened Seqs
  import opened Clock
  import opened Domain

  /** The grid shows hours 6 to 21: `hourStart` and `hourEnd`. */
  const FirstHour := 6
  const EndHour := 22
  /** Length of a drawn free slot. */
  const SlotMinutes := 30
  /** `default_duration_min` when the setting is absent. */
  const DefaultDuration := 30
  const Sunday := 0
  const Monday := 1

  // ---------------------------------------------------------------------
  // Week navigation

  /** `dayjs(d).startOf('week')` in a locale whose weeks begin on `weekStart`
      (Monday for the French locale the page loads). */
  function StartOfWeek(d: int, weekStart: int): int
    requires 0 <= weekStart < 7
  {
    d - (Weekday(d) - weekStart + 7) % 7
  }

  /** The start of a week falls on the locale's first weekday, at most six days before `d`. */
  lemma StartOfWeekWeekday(d: int, weekStart: int)
    requires 0 <= weekStart < 7
    ensures Weekday(StartOfWeek(d, weekStart)) == weekStart
    ensures StartOfWeek(d, weekStart) <= d < StartOfWeek(d, weekStart) + 7
  {
    var w := Weekday(d);
    var back := (w - weekStart + 7) % 7;
    var q := (d + 4) / 7;
    assert d + 4 == 7 * q + w;
    if w >= weekStart {
      assert back == w - weekStart;
      assert d - back + 4 == 7 * q + weekStart;
    } else {
      assert back == w - weekStart + 7;
      assert d - back + 4 == 7 * (q - 1) + weekStart;
    }
  }

  /** `weekStartMonday`: the start of the week, moved to the next day unless it is a Monday. */
  function WeekStartMonday(d: int, weekStart: int): (r: int)
    requires 0 <= weekStart < 7
    ensures Weekday(r) == if weekStart == Monday then Monday else (weekStart + 1) % 7
    ensures r - 1 <= d < r + 7
    ensures weekStart == Monday ==> Weekday(r) == Monday && r <= d < r + 7
    ensures weekStart == Sunday ==> Weekday(r) == Monday && r - 1 <= d < r + 6
  {
    var s := StartOfWeek(d, weekStart);
    StartOfWeekWeekday(d, weekStart);
    NextWeekday(s);
    if Weekday(s) == Monday then s else s + 1
  }

  /** The weekday of the next day is the following weekday; the day after a Sunday is a Monday. */
  lemma NextWeekday(s: int)
    ensures Weekday(s + 1) == (Weekday(s) + 1) % 7
    ensures Weekday(s) == Sunday ==> Weekday(s + 1) == Monday
  {
    var q := (s + 4) / 7;
    assert s + 4 == 7 * q + Weekday(s);
    if Weekday(s) == 6 {
      assert s + 5 == 7 * (q + 1);
    } else {
      assert s + 5 == 7 * q + (Weekday(s) + 1);
    }
  }

  // ---------------------------------------------------------------------
  // Fetched bookings

  /** A booking row as `/admin/bookings` returns it. */
  datatype RawBooking = RawBooking(
    id: int, startsAt: int, endsAt: int, zoneName: Option<string>, zoneId: Option<int>,
    staffId: Option<int>, staffName: Option<string>, clientName: Option<string>,
    restaurantName: Option<string>, city: Option<string>, title: Option<string>,
    meetingMode: Option<string>)

  /** `x || undefined` on an optional string. */
  function OrUndefined(s: Option<string>): Option<string> {
    if s.Some? && s.value != "" then s else None
  }

  /** `x || ''` on an optional string. */
  function OrEmpty(s: Option<string>): string {
    if s.Some? then s.value else ""
  }

  /** `meeting_mode` kept only when it is exactly `'visio'` or `'physique'`. */
  function NormaliseMode(m: Option<string>): (r: Option<MeetingMode>)
    ensures r == Some(Visio) <==> m == Some("visio")
    ensures r == Some(Physique) <==> m == Some("physique")
  {
    if m == Some("visio") then Some(Visio)
    else if m == Some("physique") then Some(Physique)
    else None
  }

  /** The `mappedBookings` entry for one fetched row. */
  function MapBooking(x: RawBooking): (b: Booking)
    ensures b.id == x.id
    ensures b.mode == NormaliseMode(x.meetingMode)
    ensures b.start == x.startsAt && b.end == x.endsAt && b.zoneId == x.zoneId && b.staffId == x.staffId
    ensures b.zone == OrEmpty(x.zoneName) && b.clientName == OrEmpty(x.clientName)
    ensures b.staffName == OrUndefined(x.staffName) && b.restaurantName == OrUndefined(x.restaurantName)
            && b.city == OrUndefined(x.city)
    ensures b.staffName != Some("") && b.restaurantName != Some("") && b.city != Some("")
    ensures b.title == if OrEmpty(x.title) != "" then x.title.value else OrEmpty(x.clientName)
  {
    Booking(
      x.id, x.startsAt, x.endsAt, OrEmpty(x.zoneName), x.zoneId, x.staffId,
      OrUndefined(x.staffName), OrEmpty(x.clientName),
      OrUndefined(x.restaurantName), OrUndefined(x.city),
      if OrEmpty(x.title) != "" then OrEmpty(x.title) else OrEmpty(x.clientName),
      NormaliseMode(x.meetingMode))
  }

  /** The wire name of a normalised mode. */
  function ModeName(m: Option<MeetingMode>): Option<string> {
    match m
    case Some(Visio) => Some("visio")
    case Some(Physique) => Some("physique")
    case None => None
  }

  /** A mapped booking written back as a row. */
  function ToRaw(b: Booking): RawBooking {
    RawBooking(b.id, b.start, b.end, Some(b.zone), b.zoneId, b.staffId, b.staffName,
               Some(b.clientName), b.restaurantName, b.city, Some(b.title), ModeName(b.mode))
  }

  /** Mapping is a normalisation: mapping a mapped booking again changes nothing. */
  lemma MapBookingIdempotent(x: RawBooking)
    ensures MapBooking(ToRaw(MapBooking(x))) == MapBooking(x)
  {
  }

  // ---------------------------------------------------------------------
  // The "now" line

  /** `minutesFromStart`: minutes since the top of the grid. */
  function MinutesFromStart(hour: int, minute: int): int {
    hour * MinutesPerHour + minute - FirstHour * MinutesPerHour
  }

  /** Applied to an instant's hour and minute, `minutesFromStart` is the minute of the day
      less the six hours above the grid: negative before 06:00, 960 at 22:00. */
  lemma MinutesFromStartOfInstant(t: int)
    ensures MinutesFromStart(HourOf(t), MinuteOf(t)) == MinuteOfDay(t) - FirstHour * MinutesPerHour
    ensures MinutesFromStart(HourOf(t), MinuteOf(t)) < 0 <==> HourOf(t) < FirstHour
    ensures -FirstHour * MinutesPerHour <= MinutesFromStart(HourOf(t), MinuteOf(t)) < MinutesPerDay - FirstHour * MinutesPerHour
  {
    Decompose(t);
    assert MinuteOfDay(t) == HourOf(t) * MinutesPerHour + MinuteOf(t);
  }

  /** Where the "now" line is drawn in `day`'s column, if at all. */
  function NowLinePosition(day: int, now: int): (r: Option<int>)
    ensures r.Some? <==> Day(now) == day && FirstHour * MinutesPerHour <= MinuteOfDay(now) <= EndHour * MinutesPerHour
    ensures r.Some? ==> r.value == MinuteOfDay(now) - FirstHour * MinutesPerHour
    ensures r.Some? ==> 0 <= r.value <= (EndHour - FirstHour) * MinutesPerHour
  {
    var showNowLine := Day(now) == day;
    var pos := if showNowLine then MinutesFromStart(HourOf(now), MinuteOf(now)) else -1;
    Decompose(now);
    if showNowLine && pos >= 0 && pos <= (EndHour - FirstHour) * MinutesPerHour then Some(pos) else None
  }

  // ---------------------------------------------------------------------
  // Availability of one staff member on one day

  /** An entry of the merged availability `{start, end, staff_id}`. */
  datatype MergedAvail = MergedAvail(start: int, end: int, staffId: int)

  /** A free interval `[start, end)`. */
  datatype Interval = Interval(start: int, end: int)

  /** A free slot drawn in an hour row. */
  datatype FreeSlot = FreeSlot(start: int, staffId: int)

  function OfStaffOnDay(day: int, staffId: int): MergedAvail -> bool {
    (m: MergedAvail) => m.staffId == staffId && Day(m.start) == day
  }

  function ToInterval(m: MergedAvail): Interval {
    Interval(m.start, m.end)
  }

  ghost predicate SortedByStart(s: seq<Interval>) {
    forall i, j :: 0 <= i < j < |s| ==> s[i].start <= s[j].start
  }

  /** Inserts `x` after every interval starting no later than it. */
  function Insert(x: Interval, s: seq<Interval>): seq<Interval> {
    if |s| == 0 then [x]
    else if s[|s| - 1].start <= x.start then s + [x]
    else Insert(x, s[..|s| - 1]) + [s[|s| - 1]]
  }

  /** Insertion adds exactly `x`. */
  lemma {:induction false} InsertPermutes(x: Interval, s: seq<Interval>)
    ensures multiset(Insert(x, s)) == multiset(s) + multiset{x}
  {
    if |s| > 0 && s[|s| - 1].start > x.start {
      var init := s[..|s| - 1];
      var last := s[|s| - 1];
      assert s == init + [last];
      InsertPermutes(x, init);
      assert multiset(Insert(x, init) + [last]) == multiset(Insert(x, init)) + multiset{last};
    }
  }

  /** Insertion into a sorted list keeps it sorted. */
  lemma {:induction false} InsertSorted(x: Interval, s: seq<Interval>)
    requires SortedByStart(s)
    ensures SortedByStart(Insert(x, s))
  {
    if |s| == 0 {
    } else if s[|s| - 1].start <= x.start {
      SortedSnoc(s, x);
    } else {
      var init := s[..|s| - 1];
      var last := s[|s| - 1];
      var t := Insert(x, init);
      InsertSorted(x, init);
      InsertPermutes(x, init);
      forall i | 0 <= i < |t| ensures t[i].start <= last.start {
        assert t[i] in multiset(t);
        if t[i] != x {
          assert t[i] in multiset(init);
          var k :| 0 <= k < |init| && init[k] == t[i];
          assert s[k] == init[k];
        }
      }
      SortedSnoc(t, last);
    }
  }

  /** Appending an interval that starts no earlier than all others keeps a list sorted. */
  lemma SortedSnoc(t: seq<Interval>, last: Interval)
    requires SortedByStart(t)
    requires forall i :: 0 <= i < |t| ==> t[i].start <= last.start
    ensures SortedByStart(t + [last])
  {
    var r := t + [last];
    forall i, j | 0 <= i < j < |r| ensures r[i].start <= r[j].start {
      if j < |t| {
        assert r[i] == t[i] && r[j] == t[j];
      } else {
        assert r[i] == t[i] && r[j] == last;
      }
    }
  }

  /** Sorting by start time, `sort((a, b) => a.start - b.start)`. */
  function SortByStart(s: seq<Interval>): (r: seq<Interval>)
    ensures SortedByStart(r)
    ensures multiset(r) == multiset(s)
  {
    if |s| == 0 then []
    else
      var init := s[..|s| - 1];
      var last := s[|s| - 1];
      assert s == init + [last];
      var t := SortByStart(init);
      InsertSorted(last, t);
      InsertPermutes(last, t);
      Insert(last, t)
  }

  /** `getAvailabilityForDay`: the staff member's free intervals that start on `day`, by start time. */
  function AvailabilityForDay(merged: seq<MergedAvail>, day: int, staffId: int): (r: seq<Interval>)
    ensures SortedByStart(r)
    ensures multiset(r) == multiset(MapSeq(ToInterval, Filter(OfStaffOnDay(day, staffId), merged)))
    ensures forall iv :: iv in r <==>
              exists m :: m in merged && m.staffId == staffId && Day(m.start) == day && iv == ToInterval(m)
  {
    var mine := Filter(OfStaffOnDay(day, staffId), merged);
    var ivs := MapSeq(ToInterval, mine);
    var r := SortByStart(ivs);
    SortedMembers(r, ivs);
    MappedMembers(mine);
    r
  }

  /** A permutation has the same elements. */
  lemma SortedMembers(r: seq<Interval>, s: seq<Interval>)
    requires multiset(r) == multiset(s)
    ensures forall iv :: iv in r <==> iv in s
  {
    assert forall iv :: iv in r <==> iv in multiset(r);
    assert forall iv :: iv in s <==> iv in multiset(s);
  }

  /** The intervals of a list of availabilities are exactly the images of its entries. */
  lemma MappedMembers(mine: seq<MergedAvail>)
    ensures forall iv :: iv in MapSeq(ToInterval, mine) <==> exists m :: m in mine && iv == ToInterval(m)
  {
    var ivs := MapSeq(ToInterval, mine);
    forall iv | iv in ivs ensures exists m :: m in mine && iv == ToInterval(m) {
      var k :| 0 <= k < |ivs| && ivs[k] == iv;
      assert mine[k] in mine;
    }
    forall m | m in mine ensures ToInterval(m) in ivs {
      var k :| 0 <= k < |mine| && mine[k] == m;
      assert ivs[k] == ToInterval(m);
    }
  }

  function StartsOn(day: int): Booking -> bool {
    (b: Booking) => Day(b.start) == day
  }

  /** `getBookingsForDay`: the bookings starting on `day`, of every staff member. */
  function BookingsForDay(bookings: seq<Booking>, day: int): (r: seq<Booking>)
    ensures forall b :: b in r <==> b in bookings && Day(b.start) == day
    ensures forall b :: multiset(r)[b] == if Day(b.start) == day then multiset(bookings)[b] else 0
    ensures IsSubseq(r, bookings)
  {
    FilterCounts(StartsOn(day), bookings);
    Filter(StartsOn(day), bookings)
  }

  /** `createSlot`: the slot handed to the booking modal when a free slot is clicked. */
  function CreateSlot(start: int, staffId: int, settings: Settings): (r: Slot)
    ensures r.start == start
    ensures r.end - r.start == settings.defaultDurationMin.GetOr(DefaultDuration)
    ensures r.availableStaffIds == [staffId] && r.zone == "" && r.zoneId.None?
  {
    var duration := settings.defaultDurationMin.GetOr(DefaultDuration);
    Slot(start, start + duration, "", None, [staffId])
  }

  // ---------------------------------------------------------------------
  // Free slots of an hour row

  /** No booking of the day strictly overlaps `[s, s + 30)`. */
  ghost predicate Free(dayBookings: seq<Booking>, s: int) {
    forall b :: b in dayBookings ==> !StrictOverlap(b.start, b.end, s, s + SlotMinutes)
  }

  function OverlapsSlotAt(s: int): Booking -> bool {
    (b: Booking) => StrictOverlap(b.start, b.end, s, s + SlotMinutes)
  }

  /** The `some` test of the loop body: a booking overlaps the slot at `s` exactly when it is not free. */
  lemma HasBookingIffTaken(dayBookings: seq<Booking>, s: int)
    ensures Any(dayBookings, OverlapsSlotAt(s)) <==> !Free(dayBookings, s)
  {
    if Any(dayBookings, OverlapsSlotAt(s)) {
      var k :| 0 <= k < |dayBookings| && OverlapsSlotAt(s)(dayBookings[k]);
      assert dayBookings[k] in dayBookings;
    } else {
      forall b | b in dayBookings ensures !StrictOverlap(b.start, b.end, s, s + SlotMinutes) {
        var k :| 0 <= k < |dayBookings| && dayBookings[k] == b;
        assert !OverlapsSlotAt(s)(dayBookings[k]);
      }
    }
  }

  /** The `while` loop: from `lo`, every 30 minutes while a whole slot fits
      before `hi`, keeping the starts no booking of the day overlaps. */
  function CutSlots(lo: int, hi: int, dayBookings: seq<Booking>): (r: seq<int>)
    decreases hi - lo
    ensures forall i :: 0 <= i < |r| ==> lo <= r[i] && r[i] + SlotMinutes <= hi && Free(dayBookings, r[i])
    ensures forall i, j :: 0 <= i < j < |r| ==> r[i] < r[j]
  {
    if lo + SlotMinutes <= hi then
      var hasBooking := Any(dayBookings, OverlapsSlotAt(lo));
      HasBookingIffTaken(dayBookings, lo);
      (if hasBooking then [] else [lo]) + CutSlots(lo + SlotMinutes, hi, dayBookings)
    else []
  }

  /** The emitted starts are exactly the free points of the 30-minute grid
      from `lo` whose slot fits before `hi`. */
  lemma {:induction false} CutSlotsExact(lo: int, hi: int, dayBookings: seq<Booking>, s: int)
    decreases hi - lo
    ensures s in CutSlots(lo, hi, dayBookings) <==>
              lo <= s && s + SlotMinutes <= hi && (s - lo) % SlotMinutes == 0 && Free(dayBookings, s)
  {
    var r := CutSlots(lo, hi, dayBookings);
    if lo + SlotMinutes <= hi {
      HasBookingIffTaken(dayBookings, lo);
      var rest := CutSlots(lo + SlotMinutes, hi, dayBookings);
      CutSlotsExact(lo + SlotMinutes, hi, dayBookings, s);
      assert r == (if Free(dayBookings, lo) then [lo] else []) + rest;
      if s > lo && (s - lo) % SlotMinutes == 0 {
        assert (s - (lo + SlotMinutes)) % SlotMinutes == 0;
        assert s >= lo + SlotMinutes;
      }
      if s >= lo + SlotMinutes && (s - (lo + SlotMinutes)) % SlotMinutes == 0 {
        assert (s - lo) % SlotMinutes == 0;
      }
    }
  }

  function Max(a: int, b: int): int { if a >= b then a else b }
  function Min(a: int, b: int): int { if a <= b then a else b }

  /** The slots one free interval contributes to the hour `[hourStart, hourStart + 60)`. */
  function IntervalSlots(iv: Interval, hourStart: int, dayBookings: seq<Booking>): (r: seq<int>)
    ensures r != [] ==> StrictOverlap(iv.start, iv.end, hourStart, hourStart + MinutesPerHour)
    ensures forall i :: 0 <= i < |r| ==>
              Max(iv.start, hourStart) <= r[i] && r[i] + SlotMinutes <= Min(iv.end, hourStart + MinutesPerHour)
  {
    var hourEnd := hourStart + MinutesPerHour;
    if iv.start < hourEnd && iv.end > hourStart then
      CutSlots(Max(iv.start, hourStart), Min(iv.end, hourEnd), dayBookings)
    else []
  }

  /** The overlap test before the loop decides nothing: without it the loop
      would emit nothing for an interval that misses the hour. */
  lemma OverlapGuardRedundant(iv: Interval, hourStart: int, dayBookings: seq<Booking>)
    ensures IntervalSlots(iv, hourStart, dayBookings)
            == CutSlots(Max(iv.start, hourStart), Min(iv.end, hourStart + MinutesPerHour), dayBookings)
  {
    var lo := Max(iv.start, hourStart);
    var hi := Min(iv.end, hourStart + MinutesPerHour);
    if !(iv.start < hourStart + MinutesPerHour && iv.end > hourStart) {
      assert lo + SlotMinutes > hi;
    }
  }

  function Tagged(starts: seq<int>, staffId: int): (r: seq<FreeSlot>)
    ensures |r| == |starts|
    ensures forall i :: 0 <= i < |r| ==> r[i] == FreeSlot(starts[i], staffId)
  {
    seq(|starts|, i requires 0 <= i < |starts| => FreeSlot(starts[i], staffId))
  }

  function SlotsOfInterval(staffId: int, hourStart: int, dayBookings: seq<Booking>): Interval -> seq<FreeSlot> {
    (iv: Interval) => Tagged(IntervalSlots(iv, hourStart, dayBookings), staffId)
  }

  /** `availability.forEach(...)` for one staff member. */
  function IntervalsSlots(ivs: seq<Interval>, staffId: int, hourStart: int, dayBookings: seq<Booking>): seq<FreeSlot> {
    FlatMap(SlotsOfInterval(staffId, hourStart, dayBookings), ivs)
  }

  /** Each slot of one staff member lies in the hour, is free, and fits in one of the member's intervals. */
  lemma IntervalsSlotsSound(ivs: seq<Interval>, staffId: int, hourStart: int, dayBookings: seq<Booking>)
    ensures forall s :: s in IntervalsSlots(ivs, staffId, hourStart, dayBookings) ==>
              && s.staffId == staffId
              && hourStart <= s.start && s.start + SlotMinutes <= hourStart + MinutesPerHour
              && Free(dayBookings, s.start)
              && exists iv :: iv in ivs && iv.start <= s.start && s.start + SlotMinutes <= iv.end
  {
    var f := SlotsOfInterval(staffId, hourStart, dayBookings);
    forall s | s in IntervalsSlots(ivs, staffId, hourStart, dayBookings)
      ensures && s.staffId == staffId
              && hourStart <= s.start && s.start + SlotMinutes <= hourStart + MinutesPerHour
              && Free(dayBookings, s.start)
              && exists iv :: iv in ivs && iv.start <= s.start && s.start + SlotMinutes <= iv.end
    {
      FlatMapMembers(f, ivs, s);
      var k :| 0 <= k < |ivs| && s in f(ivs[k]);
      IntervalSlotSound(ivs[k], staffId, hourStart, dayBookings, s);
      assert ivs[k] in ivs;
    }
  }

  /** A slot cut from one interval lies in the hour and in the interval, and is free. */
  lemma IntervalSlotSound(iv: Interval, staffId: int, hourStart: int, dayBookings: seq<Booking>, s: FreeSlot)
    requires s in SlotsOfInterval(staffId, hourStart, dayBookings)(iv)
    ensures s.staffId == staffId
    ensures hourStart <= s.start && s.start + SlotMinutes <= hourStart + MinutesPerHour
    ensures iv.start <= s.start && s.start + SlotMinutes <= iv.end
    ensures Free(dayBookings, s.start)
  {
    var here := IntervalSlots(iv, hourStart, dayBookings);
    var tagged := Tagged(here, staffId);
    var i :| 0 <= i < |tagged| && tagged[i] == s;
    assert here[i] == s.start;
    OverlapGuardRedundant(iv, hourStart, dayBookings);
    assert s.start in CutSlots(Max(iv.start, hourStart), Min(iv.end, hourStart + MinutesPerHour), dayBookings);
  }

  function SlotsOfStaff(merged: seq<MergedAvail>, day: int, hourStart: int, dayBookings: seq<Booking>): int -> seq<FreeSlot> {
    (sid: int) => IntervalsSlots(AvailabilityForDay(merged, day, sid), sid, hourStart, dayBookings)
  }

  /** `staffs.forEach(...)`: the slots of every listed staff member. */
  function StaffSlots(staffs: seq<int>, merged: seq<MergedAvail>, day: int, hourStart: int,
                      dayBookings: seq<Booking>): seq<FreeSlot>
  {
    FlatMap(SlotsOfStaff(merged, day, hourStart, dayBookings), staffs)
  }

  /** Each slot belongs to a listed staff member, lies in the hour, is free,
      and fits in one of that member's availabilities for the day. */
  lemma StaffSlotsSound(staffs: seq<int>, merged: seq<MergedAvail>, day: int, hourStart: int,
                        dayBookings: seq<Booking>)
    ensures forall s :: s in StaffSlots(staffs, merged, day, hourStart, dayBookings) ==>
              && s.staffId in staffs
              && hourStart <= s.start && s.start + SlotMinutes <= hourStart + MinutesPerHour
              && Free(dayBookings, s.start)
              && exists m :: m in merged && m.staffId == s.staffId && Day(m.start) == day
                             && m.start <= s.start && s.start + SlotMinutes <= m.end
  {
    var f := SlotsOfStaff(merged, day, hourStart, dayBookings);
    forall s | s in StaffSlots(staffs, merged, day, hourStart, dayBookings)
      ensures && s.staffId in staffs
              && hourStart <= s.start && s.start + SlotMinutes <= hourStart + MinutesPerHour
              && Free(dayBookings, s.start)
              && exists m :: m in merged && m.staffId == s.staffId && Day(m.start) == day
                             && m.start <= s.start && s.start + SlotMinutes <= m.end
    {
      FlatMapMembers(f, staffs, s);
      var k :| 0 <= k < |staffs| && s in f(staffs[k]);
      var ivs := AvailabilityForDay(merged, day, staffs[k]);
      IntervalsSlotsSound(ivs, staffs[k], hourStart, dayBookings);
      assert s in IntervalsSlots(ivs, staffs[k], hourStart, dayBookings);
      var iv :| iv in ivs && iv.start <= s.start && s.start + SlotMinutes <= iv.end;
      var m :| m in merged && m.staffId == staffs[k] && Day(m.start) == day && iv == ToInterval(m);
      assert staffs[k] in staffs;
    }
  }

  /** The first minute of hour `hour` of `day`. */
  function HourStart(day: int, hour: int): int {
    Midnight(day) + hour * MinutesPerHour
  }

  /** The free slots drawn in the row of hour `hour` on `day`. */
  function SlotsForHour(day: int, hour: int, staffs: seq<int>, merged: seq<MergedAvail>,
                        bookings: seq<Booking>): (r: seq<FreeSlot>)
    ensures forall s :: s in r ==>
              && s.staffId in staffs
              && HourStart(day, hour) <= s.start && s.start + SlotMinutes <= HourStart(day, hour) + MinutesPerHour
              && (forall b :: b in bookings && Day(b.start) == day ==>
                    !StrictOverlap(b.start, b.end, s.start, s.start + SlotMinutes))
              && exists m :: m in merged && m.staffId == s.staffId && Day(m.start) == day
                             && m.start <= s.start && s.start + SlotMinutes <= m.end
  {
    StaffSlotsSound(staffs, merged, day, HourStart(day, hour), BookingsForDay(bookings, day));
    StaffSlots(staffs, merged, day, HourStart(day, hour), BookingsForDay(bookings, day))
  }

  /** Every free point of the 30-minute grid that starts at the later of an
      interval's start and the hour's start, and whose slot fits in both, is
      drawn for that interval's staff member. */
  lemma SlotsForHourComplete(day: int, hour: int, staffs: seq<int>, merged: seq<MergedAvail>,
                             bookings: seq<Booking>, k: nat, iv: Interval, s: int)
    requires k < |staffs| && iv in AvailabilityForDay(merged, day, staffs[k])
    requires Max(iv.start, HourStart(day, hour)) <= s
    requires s + SlotMinutes <= Min(iv.end, HourStart(day, hour) + MinutesPerHour)
    requires (s - Max(iv.start, HourStart(day, hour))) % SlotMinutes == 0
    requires forall b :: b in bookings && Day(b.start) == day ==> !StrictOverlap(b.start, b.end, s, s + SlotMinutes)
    ensures FreeSlot(s, staffs[k]) in SlotsForHour(day, hour, staffs, merged, bookings)
  {
    var hs := HourStart(day, hour);
    var dayBookings := BookingsForDay(bookings, day);
    var ivs := AvailabilityForDay(merged, day, staffs[k]);
    var lo := Max(iv.start, hs);
    var hi := Min(iv.end, hs + MinutesPerHour);
    assert Free(dayBookings, s) by {
      forall b | b in dayBookings ensures !StrictOverlap(b.start, b.end, s, s + SlotMinutes) {
        assert b in bookings && Day(b.start) == day;
      }
    }
    CutSlotsExact(lo, hi, dayBookings, s);
    assert s in CutSlots(lo, hi, dayBookings);
    OverlapGuardRedundant(iv, hs, dayBookings);
    assert s in IntervalSlots(iv, hs, dayBookings);
    var here := IntervalSlots(iv, hs, dayBookings);
    var i :| 0 <= i < |here| && here[i] == s;
    assert FreeSlot(s, staffs[k]) in SlotsOfInterval(staffs[k], hs, dayBookings)(iv) by {
      assert Tagged(here, staffs[k])[i] == FreeSlot(s, staffs[k]);
    }
    var j :| 0 <= j < |ivs| && ivs[j] == iv;
    FlatMapMembers(SlotsOfInterval(staffs[k], hs, dayBookings), ivs, FreeSlot(s, staffs[k]));
    assert FreeSlot(s, staffs[k]) in SlotsOfStaff(merged, day, hs, dayBookings)(staffs[k]);
    FlatMapMembers(SlotsOfStaff(merged, day, hs, dayBookings), staffs, FreeSlot(s, staffs[k]));
  }
}

=== FILE: clock.dfy ===
/** Time as integer minutes. Conversion to Europe/Paris local time is taken as
    already applied: an instant `t` is minute `MinuteOfDay(t)` of day `Day(t)`. */
module Clock {

  const MinutesPerDay := 1440
  const MinutesPerHour := 60
  /** The afternoon begins at 13:00 (`hour() < 13` is the morning test). */
  const AfternoonHour := 13

  /** The day index of instant `t` (day 0 is Thursday 1 January 1970). */
  function Day(t: int): int {
    t / MinutesPerDay
  }

  /** Minutes since midnight of `t`'s day. */
  function MinuteOfDay(t: int): int {
    t % MinutesPerDay
  }

  /** `dayjs(t).hour()`. */
  function HourOf(t: int): int {
    MinuteOfDay(t) / MinutesPerHour
  }

  /** `dayjs(t).minute()`. */
  function MinuteOf(t: int): int {
    MinuteOfDay(t) % MinutesPerHour
  }

  /** The first midnight-relative minute of day `d`. */
  function Midnight(d: int): int {
    d * MinutesPerDay
  }

  /** `hour() < 13`. */
  predicate IsMorning(t: int) {
    HourOf(t) < AfternoonHour
  }

  /** `a` and `b` fall on the same day and in the same half of it. */
  predicate SameHalfDay(a: int, b: int) {
    Day(a) == Day(b) && IsMorning(a) == IsMorning(b)
  }

  /** `dayjs(...).day()`: 0 for Sunday through 6 for Saturday. */
  function Weekday(d: int): int {
    (d + 4) % 7
  }

  /** Strict overlap of `[aStart, aEnd)` and `[bStart, bEnd)`: `aStart < bEnd && aEnd > bStart`. */
  predicate StrictOverlap(aStart: int, aEnd: int, bStart: int, bEnd: int) {
    aStart < bEnd && aEnd > bStart
  }

  /** The instant is recovered from its day, hour and minute; the morning is
      exactly the minutes before 13:00. */
  lemma Decompose(t: int)
    ensures t == Midnight(Day(t)) + HourOf(t) * MinutesPerHour + MinuteOf(t)
    ensures 0 <= HourOf(t) < 24 && 0 <= MinuteOf(t) < 60
    ensures IsMorning(t) <==> MinuteOfDay(t) < AfternoonHour * MinutesPerHour
  {
  }
}

=== FILE: domain.dfy ===
/** The records the pages exchange with the booking API, after parsing. */
module Domain {
  import opened Base

  /** `meeting_mode` once normalised: exactly `'visio'` or `'physique'`. */
  datatype MeetingMode = Visio | Physique

  /** A zone `{id, name}`. */
  datatype Zone = Zone(id: int, name: string)

  /** A link `{staff_id, zone_id}`: the staff member may serve the zone. */
  datatype StaffZone = StaffZone(staffId: int, zoneId: int)

  /** A bookable slot; `zone` is `''` when none is attached. */
  datatype Slot = Slot(start: int, end: int, zone: string, zoneId: Option<int>, availableStaffIds: seq<int>)

  /** An existing booking as the calendar holds it. A missing `zone` is `''`. */
  datatype Booking = Booking(
    id: int, start: int, end: int, zone: string, zoneId: Option<int>,
    staffId: Option<int>, staffName: Option<string>, clientName: string,
    restaurantName: Option<string>, city: Option<string>, title: string,
    mode: Option<MeetingMode>)

  /** The settings keys the pages read; an absent key is `None`. */
  datatype Settings = Settings(
    defaultDurationMin: Option<int>,
    demoVisioMinGapMin: Option<int>,
    demoVisioBufferAfterMin: Option<int>,
    demoPhysiqueSecondMinGapMin: Option<int>)

  /** A booking counts as physical only when its mode is exactly `'physique'`. */
  predicate IsPhysical(b: Booking) {
    b.mode == Some(Physique)
  }
}

=== FILE: seqs.dfy ===
/** Generic sequence operations with the meaning of the JavaScript array
    methods the pages use: `filter`, `find`, `every`, `some`, `map`. */
module Seqs {
  import opened Base

  /** `a` is an order-preserving sub-list of `b`. */
  ghost predicate IsSubseq<T>(a: seq<T>, b: seq<T>)
    decreases |b|
  {
    && |a| <= |b|
    && (|a| == 0 || (a[0] == b[0] && IsSubseq(a[1..], b[1..])) || IsSubseq(a, b[1..]))
  }

  /** Every list is a sub-list of itself. */
  lemma {:induction false} SubseqRefl<T>(s: seq<T>)
    ensures IsSubseq(s, s)
  {
    if |s| > 0 {
      SubseqRefl(s[1..]);
    }
  }

  /** No element occurs twice. */
  ghost predicate NoDups<T>(s: seq<T>) {
    forall i, j :: 0 <= i < j < |s| ==> s[i] != s[j]
  }

  /** `s.filter(p)`: keeps, in order, exactly the elements satisfying `p`,
      each as many times as it occurs in `s`. */
  function Filter<T(!new)>(p: T -> bool, s: seq<T>): (r: seq<T>)
    ensures |r| <= |s|
    ensures forall x :: x in r <==> x in s && p(x)
    ensures IsSubseq(r, s)
  {
    if |s| == 0 then []
    else if p(s[0]) then [s[0]] + Filter(p, s[1..])
    else Filter(p, s[1..])
  }

  /** Filtering keeps each element satisfying `p` as many times as it occurs. */
  lemma {:induction false} FilterCounts<T(!new)>(p: T -> bool, s: seq<T>)
    ensures forall x :: multiset(Filter(p, s))[x] == if p(x) then multiset(s)[x] else 0
  {
    if |s| > 0 {
      FilterCounts(p, s[1..]);
      assert s == [s[0]] + s[1..];
    }
  }

  /** `s.findIndex(p)`, as `None` instead of -1: the first index whose element satisfies `p`. */
  function FindIndex<T>(p: T -> bool, s: seq<T>): (r: Option<nat>)
    ensures r.Some? ==> r.value < |s| && p(s[r.value]) && forall j :: 0 <= j < r.value ==> !p(s[j])
    ensures r.None? ==> forall i :: 0 <= i < |s| ==> !p(s[i])
  {
    if |s| == 0 then None
    else if p(s[0]) then Some(0)
    else
      match FindIndex(p, s[1..])
      case None => None
      case Some(i) => Some(i + 1)
  }

  /** An index whose element satisfies `p`, with none before it, is the index `findIndex` returns. */
  lemma {:induction false} FindIndexFirst<T>(p: T -> bool, s: seq<T>, i: int)
    requires 0 <= i < |s| && p(s[i])
    requires forall j :: 0 <= j < i ==> !p(s[j])
    ensures FindIndex(p, s) == Some(i)
  {
    if i > 0 {
      assert !p(s[0]);
      assert s[1..][i - 1] == s[i];
      FindIndexFirst(p, s[1..], i - 1);
    }
  }

  /** `s.every(p)`. */
  function All<T>(s: seq<T>, p: T -> bool): (r: bool)
    ensures r <==> forall i :: 0 <= i < |s| ==> p(s[i])
  {
    |s| == 0 || (p(s[0]) && All(s[1..], p))
  }

  /** `s.some(p)`. */
  function Any<T>(s: seq<T>, p: T -> bool): (r: bool)
    ensures r <==> exists i :: 0 <= i < |s| && p(s[i])
  {
    |s| > 0 && (p(s[0]) || Any(s[1..], p))
  }

  /** `s.map(f)`. */
  function MapSeq<T, U>(f: T -> U, s: seq<T>): (r: seq<U>)
    ensures |r| == |s|
    ensures forall i :: 0 <= i < |s| ==> r[i] == f(s[i])
  {
    if |s| == 0 then [] else [f(s[0])] + MapSeq(f, s[1..])
  }

  /** Two indices whose elements satisfy `p` leave at least two elements after filtering. */
  lemma {:induction false} FilterKeepsTwo<T(!new)>(p: T -> bool, s: seq<T>, i: int, j: int)
    requires 0 <= i < j < |s| && p(s[i]) && p(s[j])
    ensures |Filter(p, s)| >= 2
  {
    if i == 0 {
      assert s[j] in s[1..] by { assert s[1..][j - 1] == s[j]; }
      assert s[j] in Filter(p, s[1..]);
    } else {
      FilterKeepsTwo(p, s[1..], i - 1, j - 1);
    }
  }

  /** When exactly one index satisfies `p`, filtering leaves exactly that element. */
  lemma {:induction false} FilterKeepsOnly<T(!new)>(p: T -> bool, s: seq<T>, i: int)
    requires 0 <= i < |s| && p(s[i])
    requires forall k :: 0 <= k < |s| && k != i ==> !p(s[k])
    ensures Filter(p, s) == [s[i]]
  {
    if i == 0 {
      FilterEmptyIff(p, s[1..]);
    } else {
      FilterKeepsOnly(p, s[1..], i - 1);
    }
  }

  /** An element satisfying `p` survives filtering; none survive when none satisfies `p`. */
  lemma FilterEmptyIff<T(!new)>(p: T -> bool, s: seq<T>)
    ensures Filter(p, s) == [] <==> forall i :: 0 <= i < |s| ==> !p(s[i])
  {
    if Filter(p, s) != [] {
      assert Filter(p, s)[0] in Filter(p, s);
    }
    forall i | 0 <= i < |s| && p(s[i])
      ensures Filter(p, s) != []
    {
      assert s[i] in Filter(p, s);
    }
  }

  /** Filtering twice by the same predicate is filtering once. */
  lemma {:induction false} FilterIdempotent<T(!new)>(p: T -> bool, s: seq<T>)
    ensures Filter(p, Filter(p, s)) == Filter(p, s)
  {
    if |s| > 0 {
      FilterIdempotent(p, s[1..]);
      if p(s[0]) {
        assert ([s[0]] + Filter(p, s[1..]))[1..] == Filter(p, s[1..]);
      }
    }
  }

  /** `s.flatMap(f)`: the lists `f` gives for the elements of `s`, concatenated in order. */
  function FlatMap<T, U>(f: T -> seq<U>, s: seq<T>): seq<U> {
    if |s| == 0 then [] else f(s[0]) + FlatMap(f, s[1..])
  }

  /** An element of a flat map comes from the list of some element, and every such element is in it. */
  lemma {:induction false} FlatMapMembers<T, U>(f: T -> seq<U>, s: seq<T>, x: U)
    ensures x in FlatMap(f, s) <==> exists k :: 0 <= k < |s| && x in f(s[k])
  {
    if |s| > 0 {
      FlatMapMembers(f, s[1..], x);
      if exists k :: 0 <= k < |s| && x in f(s[k]) {
        var k :| 0 <= k < |s| && x in f(s[k]);
        if k > 0 {
          assert s[1..][k - 1] == s[k];
        }
      }
      if exists k :: 0 <= k < |s[1..]| && x in f(s[1..][k]) {
        var k :| 0 <= k < |s[1..]| && x in f(s[1..][k]);
        assert s[1..][k] == s[k + 1];
      }
    }
  }
}

=== FILE: staff_view.dfy ===
/** The staff page (app/staff/page.tsx): the day's slots narrowed to one
    staff member, the staff filter's select, and the booking sent from it. */
module StaffView {
  import opened Base
  import opened Seqs
  import opened Text
  import opened Domain
  import opened BookingPayload
  import BookingModal

  function OffersStaff(staffId: int): Slot -> bool {
    (s: Slot) => staffId in s.availableStaffIds
  }

  /** `viewSlots`: every slot without a filter, otherwise the slots the chosen
      staff member can take. */
  function ViewSlots(slots: seq<Slot>, staffFilter: Option<int>): (r: seq<Slot>)
    ensures !Truthy(staffFilter) ==> r == slots
    ensures Truthy(staffFilter) ==>
              forall s :: s in r <==> s in slots && staffFilter.value in s.availableStaffIds
    ensures Truthy(staffFilter) ==>
              forall s :: multiset(r)[s] == if staffFilter.value in s.availableStaffIds then multiset(slots)[s] else 0
    ensures IsSubseq(r, slots)
  {
    if !Truthy(staffFilter) then
      SubseqRefl(slots);
      slots
    else
      FilterCounts(OffersStaff(staffFilter.value), slots);
      Filter(OffersStaff(staffFilter.value), slots)
  }

  /** Narrowing the view again by the same filter changes nothing. */
  lemma ViewSlotsIdempotent(slots: seq<Slot>, staffFilter: Option<int>)
    ensures ViewSlots(ViewSlots(slots, staffFilter), staffFilter) == ViewSlots(slots, staffFilter)
  {
    if Truthy(staffFilter) {
      FilterIdempotent(OffersStaff(staffFilter.value), slots);
    }
  }

  /** `Number(t)` for an optionally signed decimal integer literal; `None`
      stands for `NaN` (and for the numeric forms this model does not read). */
  function NumberOf(v: string): (r: Option<int>)
    ensures r.None? <==> !(Trim(v) == "" || IsDecimal(Trim(v)) || Signed(Trim(v), '-') || Signed(Trim(v), '+'))
    ensures Trim(v) == "" ==> r == Some(0)
    ensures IsDecimal(Trim(v)) ==> r == Some(DecimalValue(Trim(v)))
    ensures Signed(Trim(v), '-') ==> r == Some(-(DecimalValue(Trim(v)[1..]) as int))
    ensures Signed(Trim(v), '+') ==> r == Some(DecimalValue(Trim(v)[1..]) as int)
  {
    var t := Trim(v);
    if t == "" then Some(0)
    else if IsDecimal(t) then Some(DecimalValue(t))
    else if |t| > 1 && t[0] == '-' && IsDecimal(t[1..]) then Some(-(DecimalValue(t[1..]) as int))
    else if |t| > 1 && t[0] == '+' && IsDecimal(t[1..]) then Some(DecimalValue(t[1..]))
    else None
  }

  /** `t` is the sign `sign` followed by decimal digits. */
  predicate Signed(t: string, sign: char) {
    |t| > 1 && t[0] == sign && IsDecimal(t[1..])
  }

  /** `Number(e.target.value) || undefined`: zero and `NaN` clear the filter. */
  function ParseStaffSelect(v: string): (r: Option<int>)
    ensures r.Some? ==> r.value != 0
    ensures r.Some? <==> NumberOf(v).Some? && NumberOf(v).value != 0
    ensures r.Some? ==> r == NumberOf(v)
  {
    match NumberOf(v)
    case Some(n) => if n != 0 then Some(n) else None
    case None => None
  }

  /** `String(n)` for an integer. */
  function IntString(n: int): (s: string)
    ensures n >= 0 ==> s == DecimalString(n)
    ensures n < 0 ==> s == "-" + DecimalString(-n)
  {
    if n >= 0 then DecimalString(n) else "-" + DecimalString(-n)
  }

  /** The select's `value={staffFilter ?? 0}` as the DOM renders it. */
  function SelectValue(staffFilter: Option<int>): string {
    IntString(staffFilter.GetOr(0))
  }

  /** A digit string has no white space to trim. */
  lemma DigitsTrimmed(s: string)
    requires IsDecimal(s)
    ensures Trim(s) == s
  {
    assert !IsSpace(s[0]) && !IsSpace(s[|s| - 1]);
    TrimOfTrimmed(s);
  }

  /** A rendered non-negative integer reads back as itself. */
  lemma NonNegativeReadsBack(n: int)
    requires n >= 0
    ensures NumberOf(IntString(n)) == Some(n)
  {
    var s := IntString(n);
    DigitsTrimmed(s);
    DecimalRoundTrip(n);
  }

  /** A rendered negative integer reads back as itself. */
  lemma NegativeReadsBack(n: int)
    requires n < 0
    ensures NumberOf(IntString(n)) == Some(n)
  {
    var d := DecimalString(-n);
    var s := IntString(n);
    SignedDigitsTrimmed(d);
    assert s[0] == '-' && s[1..] == d;
    assert !IsDecimal(s) by { assert !IsDigit(s[0]); }
    DecimalRoundTrip(-n);
  }

  /** A minus sign followed by digits has no white space to trim. */
  lemma SignedDigitsTrimmed(d: string)
    requires IsDecimal(d)
    ensures Trim("-" + d) == "-" + d
  {
    var s := "-" + d;
    assert s[0] == '-' && s[|s| - 1] == d[|d| - 1];
    assert !IsSpace(s[0]) && !IsSpace(s[|s| - 1]);
    TrimOfTrimmed(s);
  }

  /** Choosing an option and reading it back gives the same filter: the
      select shows the filter it sets. The filter is never `Some(0)`, since
      reading the select maps zero to "no filter". */
  lemma SelectRoundTrip(staffFilter: Option<int>)
    requires staffFilter != Some(0)
    ensures ParseStaffSelect(SelectValue(staffFilter)) == staffFilter
  {
    var n := staffFilter.GetOr(0);
    if n >= 0 {
      NonNegativeReadsBack(n);
    } else {
      NegativeReadsBack(n);
    }
  }

  /** `book()` on the staff page: the request for the slot's own zone, sent
      without any client-side check. */
  function StaffBook(slot: Slot, form: BookingForm): (r: BookingRequest)
    ensures r.zoneName == slot.zone
    ensures r.slotStart == slot.start && r.slotEnd == slot.end
    ensures r.attendees == AttendeeList(form.email, form.att)
    ensures r.staffId.Some? <==> Truthy(form.staffId)
  {
    BuildRequest(slot, form, slot.zone)
  }

  /** Whenever the calendar's modal would send a booking under the slot's
      own zone, the staff page sends the very same body. */
  lemma StaffBookAgreesWithModal(slot: Slot, bookings: seq<Booking>, settings: Settings,
                                 zones: seq<Zone>, form: BookingForm, zoneName: string)
    ensures var sent := BookingModal.Book(slot, bookings, settings, zones, form, zoneName);
            sent.Sent? && BookingModal.PayloadZone(form.isVisio, zoneName, zones, slot) == slot.zone
            ==> StaffBook(slot, form) == sent.request
  {
  }
}

=== FILE: staff_zones.dfy ===
/** The weekly staff × zone editor (app/staff-zones/page.tsx): the check-box
    matrix built from the stored rules, toggling a cell, the rule already
    stored for each cell, the opening-time fields, and the create / update /
    delete requests a save sends. */
module StaffZones {
  import opened Base
  import opened Seqs
  import opened Domain

  /** A matrix cell, the key `${zone_id}-${weekday}` (weekday 0 is Sunday). */
  datatype Cell = Cell(zoneId: int, weekday: int)

  /** A stored staff-zone rule. */
  datatype Rule = Rule(id: int, staffId: int, zoneId: int, weekday: int, startTime: string, endTime: string)

  const DaysPerWeek := 7
  /** The time fields' initial values. */
  const DefaultStart := "09:00:00"
  const DefaultEnd := "18:00:00"

  function CellOf(r: Rule): Cell {
    Cell(r.zoneId, r.weekday)
  }

  /** `r` is a rule of staff member `staffId` for cell `c`. */
  predicate Matches(r: Rule, staffId: int, c: Cell) {
    r.staffId == staffId && CellOf(r) == c
  }

  /** Some rule of `rules` belongs to `staffId` at `c`. */
  ghost predicate HasRule(rules: seq<Rule>, staffId: int, c: Cell) {
    exists i :: 0 <= i < |rules| && Matches(rules[i], staffId, c)
  }

  // ---------------------------------------------------------------------
  // The rule stored for each cell

  /** `existingMap`: for each cell, the staff member's rule there; a later rule overwrites an earlier one. */
  function ExistingMap(rules: seq<Rule>, staffId: int): (r: map<Cell, Rule>)
    ensures forall c :: c in r <==> HasRule(rules, staffId, c)
    ensures forall c :: c in r ==> Matches(r[c], staffId, c) && r[c] in rules
  {
    if |rules| == 0 then map[]
    else
      var init := rules[..|rules| - 1];
      var last := rules[|rules| - 1];
      var m := ExistingMap(init, staffId);
      assert forall i :: 0 <= i < |init| ==> rules[i] == init[i];
      if last.staffId == staffId then m[CellOf(last) := last] else m
  }

  /** The rule kept for a cell is the last of the staff member's rules there. */
  lemma {:induction false} ExistingMapLastWins(rules: seq<Rule>, staffId: int, i: int)
    requires 0 <= i < |rules| && rules[i].staffId == staffId
    requires forall j :: i < j < |rules| ==> !Matches(rules[j], staffId, CellOf(rules[i]))
    ensures ExistingMap(rules, staffId)[CellOf(rules[i])] == rules[i]
  {
    var init := rules[..|rules| - 1];
    if i < |rules| - 1 {
      assert init[i] == rules[i];
      assert forall j :: i < j < |init| ==> init[j] == rules[j];
      ExistingMapLastWins(init, staffId, i);
    }
  }

  // ---------------------------------------------------------------------
  // The check-box matrix

  /** `matrix[k]` read with `!!`: a missing key is unchecked. */
  predicate Checked(m: map<Cell, bool>, c: Cell) {
    c in m && m[c]
  }

  /** The matrix computed when the rules or the selected staff member change:
      exactly the cells where the staff member has a rule are checked. */
  function BuildMatrix(rules: seq<Rule>, staffId: int): (r: map<Cell, bool>)
    ensures forall c :: c in r ==> r[c]
    ensures forall c :: Checked(r, c) <==> c in ExistingMap(rules, staffId)
  {
    if |rules| == 0 then map[]
    else
      var init := rules[..|rules| - 1];
      var last := rules[|rules| - 1];
      var m := BuildMatrix(init, staffId);
      assert forall i :: 0 <= i < |init| ==> rules[i] == init[i];
      if last.staffId == staffId then m[CellOf(last) := true] else m
  }

  /** `toggle`: flips one cell and leaves every other entry as it was. */
  function Toggle(m: map<Cell, bool>, c: Cell): (r: map<Cell, bool>)
    ensures Checked(r, c) <==> !Checked(m, c)
    ensures forall d :: d != c ==> (d in r <==> d in m) && (d in m ==> r[d] == m[d])
  {
    m[c := !Checked(m, c)]
  }

  /** Toggling a cell twice shows the same check boxes as before. */
  lemma ToggleTwice(m: map<Cell, bool>, c: Cell)
    ensures forall d :: Checked(Toggle(Toggle(m, c), c), d) <==> Checked(m, d)
  {
  }

  // ---------------------------------------------------------------------
  // The opening-time fields

  /** The page's start and end time fields. */
  datatype TimeRange = TimeRange(startTime: string, endTime: string)

  const Defaults := TimeRange(DefaultStart, DefaultEnd)

  function StartOf(r: Rule): string { r.startTime }
  function EndOf(r: Rule): string { r.endTime }

  /** The value a time field holds after `if (r.field) setField(r.field)` ran
      for each of the staff member's rules in order, starting from `cur`. */
  function LastTime(rules: seq<Rule>, staffId: int, field: Rule -> string, cur: string): (r: string)
    ensures r == cur || exists i :: 0 <= i < |rules| && rules[i].staffId == staffId && field(rules[i]) == r && r != ""
    ensures (forall i :: 0 <= i < |rules| && rules[i].staffId == staffId ==> field(rules[i]) == "") ==> r == cur
  {
    if |rules| == 0 then cur
    else
      var init := rules[..|rules| - 1];
      var last := rules[|rules| - 1];
      assert forall i :: 0 <= i < |init| ==> rules[i] == init[i];
      if last.staffId == staffId && field(last) != "" then field(last)
      else LastTime(init, staffId, field, cur)
  }

  /** The value taken is that of the last of the staff member's rules that has one. */
  lemma {:induction false} LastTimeIsLast(rules: seq<Rule>, staffId: int, field: Rule -> string, cur: string, i: int)
    requires 0 <= i < |rules| && rules[i].staffId == staffId && field(rules[i]) != ""
    requires forall j :: i < j < |rules| && rules[j].staffId == staffId ==> field(rules[j]) == ""
    ensures LastTime(rules, staffId, field, cur) == field(rules[i])
  {
    var init := rules[..|rules| - 1];
    if i < |rules| - 1 {
      assert init[i] == rules[i];
      assert forall j :: i < j < |init| ==> init[j] == rules[j];
      LastTimeIsLast(init, staffId, field, cur, i);
    }
  }

  /** The time fields after the matrix is recomputed: only while both still
      hold their initial values are they replaced, each by the staff
      member's last non-empty stored value. */
  function CaptureTimes(rules: seq<Rule>, staffId: int, t: TimeRange): (r: TimeRange)
    ensures t != Defaults ==> r == t
    ensures (forall i :: 0 <= i < |rules| && rules[i].staffId == staffId ==>
               rules[i].startTime == "" && rules[i].endTime == "") ==> r == t
    ensures t == Defaults && r.startTime != t.startTime ==>
              exists i :: 0 <= i < |rules| && rules[i].staffId == staffId && rules[i].startTime == r.startTime
    ensures t == Defaults && r.endTime != t.endTime ==>
              exists i :: 0 <= i < |rules| && rules[i].staffId == staffId && rules[i].endTime == r.endTime
  {
    if t == Defaults then
      assert forall i :: 0 <= i < |rules| ==> StartOf(rules[i]) == rules[i].startTime && EndOf(rules[i]) == rules[i].endTime;
      TimeRange(LastTime(rules, staffId, StartOf, t.startTime), LastTime(rules, staffId, EndOf, t.endTime))
    else t
  }

  /** When the staff member's last rule has both times, a fresh page takes them. */
  lemma CaptureTakesLastRule(rules: seq<Rule>, staffId: int)
    requires |rules| > 0
    requires var last := rules[|rules| - 1];
             last.staffId == staffId && last.startTime != "" && last.endTime != ""
    ensures CaptureTimes(rules, staffId, Defaults)
            == TimeRange(rules[|rules| - 1].startTime, rules[|rules| - 1].endTime)
  {
    LastTimeIsLast(rules, staffId, StartOf, DefaultStart, |rules| - 1);
    LastTimeIsLast(rules, staffId, EndOf, DefaultEnd, |rules| - 1);
  }

  /** A time input's change handler: `HH:MM` gains `:00` seconds. */
  function NormaliseTime(v: string): (r: string)
    ensures |v| == 5 ==> |r| == 8 && r[..5] == v && r[5..] == ":00"
    ensures |v| != 5 ==> r == v
  {
    if |v| == 5 then v + ":00" else v
  }

  /** What a time input shows: `value={time.slice(0, 5)}`. */
  function DisplayTime(t: string): (r: string)
    ensures |r| == if |t| < 5 then |t| else 5
    ensures r <= t
  {
    if |t| <= 5 then t else t[..5]
  }

  /** Normalising twice is normalising once. */
  lemma NormaliseIdempotent(v: string)
    ensures NormaliseTime(NormaliseTime(v)) == NormaliseTime(v)
  {
  }

  /** Typing `HH:MM` and showing the stored value gives back what was typed,
      and a stored `HH:MM:00` value survives being shown and typed back. */
  lemma TimeFieldRoundTrip(v: string, t: string)
    ensures |v| == 5 ==> DisplayTime(NormaliseTime(v)) == v
    ensures |t| == 8 && t[5..] == ":00" ==> NormaliseTime(DisplayTime(t)) == t
  {
    if |t| == 8 && t[5..] == ":00" {
      assert t[..5] + t[5..] == t;
    }
  }

  // ---------------------------------------------------------------------
  // Saving

  /** A request a save sends. */
  datatype RuleOp =
    | Create(staffId: int, zoneId: int, weekday: int, startTime: string, endTime: string)
    | Update(id: int, staffId: int, zoneId: int, weekday: int, startTime: string, endTime: string)
    | Delete(id: int)

  function Lookup(existing: map<Cell, Rule>, c: Cell): Option<Rule> {
    if c in existing then Some(existing[c]) else None
  }

  /** The request for one cell: create a checked cell with no rule, update a
      checked cell whose rule has other times, delete the rule of an unchecked
      cell, otherwise nothing. */
  function CellOp(c: Cell, checked: bool, ex: Option<Rule>, staffId: int, t: TimeRange): (r: Option<RuleOp>)
    ensures r.None? <==> (checked && ex.Some? && ex.value.startTime == t.startTime && ex.value.endTime == t.endTime)
                         || (!checked && ex.None?)
    ensures r.Some? && r.value.Delete? <==> !checked && ex.Some?
    ensures r.Some? && r.value.Create? <==> checked && ex.None?
    ensures r.Some? && !r.value.Delete? ==>
              r.value.staffId == staffId && r.value.zoneId == c.zoneId && r.value.weekday == c.weekday
              && r.value.startTime == t.startTime && r.value.endTime == t.endTime
    ensures r.Some? && !r.value.Create? ==> ex.Some? && r.value.id == ex.value.id
  {
    if checked && ex.None? then Some(Create(staffId, c.zoneId, c.weekday, t.startTime, t.endTime))
    else if checked && ex.Some? && (ex.value.startTime != t.startTime || ex.value.endTime != t.endTime) then
      Some(Update(ex.value.id, staffId, c.zoneId, c.weekday, t.startTime, t.endTime))
    else if !checked && ex.Some? then Some(Delete(ex.value.id))
    else None
  }

  function OptList(o: Option<RuleOp>): seq<RuleOp> {
    if o.Some? then [o.value] else []
  }

  /** The seven cells of one zone's row. */
  function WeekCells(zoneId: int): (r: seq<Cell>)
    ensures |r| == DaysPerWeek
    ensures forall i :: 0 <= i < |r| ==> r[i] == Cell(zoneId, i)
  {
    seq(DaysPerWeek, (i: int) => Cell(zoneId, i))
  }

  /** The cells a save visits, zone by zone and Sunday to Saturday. */
  function GridCells(zones: seq<Zone>): (r: seq<Cell>)
    ensures forall c :: c in r <==> (exists z :: z in zones && z.id == c.zoneId) && 0 <= c.weekday < DaysPerWeek
  {
    if |zones| == 0 then []
    else
      var row := WeekCells(zones[0].id);
      assert forall c :: c in row <==> c.zoneId == zones[0].id && 0 <= c.weekday < DaysPerWeek by {
        forall c: Cell | c.zoneId == zones[0].id && 0 <= c.weekday < DaysPerWeek ensures c in row {
          assert row[c.weekday] == c;
        }
      }
      row + GridCells(zones[1..])
  }

  /** The requests for a list of cells, in order. */
  function OpsFor(cells: seq<Cell>, matrix: map<Cell, bool>, existing: map<Cell, Rule>, staffId: int,
                  t: TimeRange): seq<RuleOp>
  {
    if |cells| == 0 then []
    else
      OptList(CellOp(cells[0], Checked(matrix, cells[0]), Lookup(existing, cells[0]), staffId, t))
      + OpsFor(cells[1..], matrix, existing, staffId, t)
  }

  /** `save`: the requests for every cell of the grid. */
  function SaveOps(zones: seq<Zone>, matrix: map<Cell, bool>, existing: map<Cell, Rule>, staffId: int,
                   t: TimeRange): (r: seq<RuleOp>)
    ensures forall op :: op in r && !op.Delete? ==>
              op.staffId == staffId && op.startTime == t.startTime && op.endTime == t.endTime
              && Cell(op.zoneId, op.weekday) in GridCells(zones)
              && Checked(matrix, Cell(op.zoneId, op.weekday))
    ensures forall op :: op in r && op.Create? ==> Cell(op.zoneId, op.weekday) !in existing
    ensures forall op :: op in r && !op.Create? ==> exists c :: c in existing && existing[c].id == op.id
  {
    var cells := GridCells(zones);
    OpsForSound(cells, matrix, existing, staffId, t);
    OpsFor(cells, matrix, existing, staffId, t)
  }

  /** Each request of `OpsFor` comes from one of the visited cells. */
  lemma {:induction false} OpsForSound(cells: seq<Cell>, matrix: map<Cell, bool>, existing: map<Cell, Rule>,
                                       staffId: int, t: TimeRange)
    ensures forall op :: op in OpsFor(cells, matrix, existing, staffId, t) ==>
              exists c :: c in cells && OptList(CellOp(c, Checked(matrix, c), Lookup(existing, c), staffId, t)) == [op]
    ensures forall op :: op in OpsFor(cells, matrix, existing, staffId, t) && !op.Delete? ==>
              op.staffId == staffId && op.startTime == t.startTime && op.endTime == t.endTime
              && Cell(op.zoneId, op.weekday) in cells && Checked(matrix, Cell(op.zoneId, op.weekday))
    ensures forall op :: op in OpsFor(cells, matrix, existing, staffId, t) && op.Create? ==>
              Cell(op.zoneId, op.weekday) !in existing
    ensures forall op :: op in OpsFor(cells, matrix, existing, staffId, t) && !op.Create? ==>
              exists c :: c in existing && existing[c].id == op.id
  {
    if |cells| > 0 {
      var c0 := cells[0];
      OpsForSound(cells[1..], matrix, existing, staffId, t);
      var o := CellOp(c0, Checked(matrix, c0), Lookup(existing, c0), staffId, t);
      assert OpsFor(cells, matrix, existing, staffId, t) == OptList(o) + OpsFor(cells[1..], matrix, existing, staffId, t);
      if o.Some? && !o.value.Create? {
        assert c0 in existing && existing[c0].id == o.value.id;
      }
    }
  }

  /** Right after the matrix is computed from the stored rules, a save
      creates and deletes nothing; it can only rewrite times. */
  lemma {:induction false} LoadedMatrixOnlyUpdates(rules: seq<Rule>, zones: seq<Zone>, staffId: int, t: TimeRange)
    ensures forall op :: op in SaveOps(zones, BuildMatrix(rules, staffId), ExistingMap(rules, staffId), staffId, t)
                         ==> op.Update?
  {
    var matrix := BuildMatrix(rules, staffId);
    var existing := ExistingMap(rules, staffId);
    var cells := GridCells(zones);
    OpsForSound(cells, matrix, existing, staffId, t);
    forall op | op in SaveOps(zones, matrix, existing, staffId, t) ensures op.Update? {
      var c :| c in cells && OptList(CellOp(c, Checked(matrix, c), Lookup(existing, c), staffId, t)) == [op];
      assert Checked(matrix, c) <==> Lookup(existing, c).Some?;
    }
  }

  // ---------------------------------------------------------------------
  // What a save does to the staff member's rules

  /** The staff member's rules, one per cell, as `existingMap` shows them. */
  ghost predicate WellFormedView(existing: map<Cell, Rule>, staffId: int) {
    forall c :: c in existing ==> Matches(existing[c], staffId, c)
  }

  /** The stored rules' ids are positive and no two cells share one. */
  ghost predicate DistinctIds(existing: map<Cell, Rule>) {
    forall c, d :: c in existing && d in existing && c != d ==> existing[c].id != existing[d].id
  }

  ghost predicate PositiveIds(existing: map<Cell, Rule>) {
    forall c :: c in existing ==> existing[c].id > 0
  }

  /** The rules left once the rule `id` is deleted. */
  function Remove(view: map<Cell, Rule>, id: int): (r: map<Cell, Rule>)
    ensures forall c :: c in r <==> c in view && view[c].id != id
    ensures forall c :: c in r ==> r[c] == view[c]
  {
    map c | c in view && view[c].id != id :: view[c]
  }

  /** The effect of one request on the staff member's rules. A created rule
      gets id 0: the store assigns the real id, which this model does not see. */
  function ApplyOp(view: map<Cell, Rule>, op: RuleOp): (r: map<Cell, Rule>)
    ensures !op.Delete? ==> Cell(op.zoneId, op.weekday) in r
    ensures op.Delete? ==> forall c :: c in r ==> r[c].id != op.id
  {
    match op
    case Create(staffId, zoneId, weekday, startTime, endTime) =>
      view[Cell(zoneId, weekday) := Rule(0, staffId, zoneId, weekday, startTime, endTime)]
    case Update(id, staffId, zoneId, weekday, startTime, endTime) =>
      Remove(view, id)[Cell(zoneId, weekday) := Rule(id, staffId, zoneId, weekday, startTime, endTime)]
    case Delete(id) =>
      Remove(view, id)
  }

  function ApplyOps(view: map<Cell, Rule>, ops: seq<RuleOp>): map<Cell, Rule>
    decreases |ops|
  {
    if |ops| == 0 then view else ApplyOps(ApplyOp(view, ops[0]), ops[1..])
  }

  /** Applying two batches in a row is applying their concatenation. */
  lemma {:induction false} ApplyOpsAppend(view: map<Cell, Rule>, a: seq<RuleOp>, b: seq<RuleOp>)
    ensures ApplyOps(view, a + b) == ApplyOps(ApplyOps(view, a), b)
    decreases |a|
  {
    if |a| == 0 {
      assert a + b == b;
    } else {
      assert (a + b)[0] == a[0];
      assert (a + b)[1..] == a[1..] + b;
      ApplyOpsAppend(ApplyOp(view, a[0]), a[1..], b);
    }
  }

  /** The rule for `c` agrees with the saved matrix and time fields. */
  ghost predicate Saved(view: map<Cell, Rule>, matrix: map<Cell, bool>, staffId: int, t: TimeRange, c: Cell) {
    && (c in view <==> Checked(matrix, c))
    && (c in view ==> Matches(view[c], staffId, c) && view[c].startTime == t.startTime && view[c].endTime == t.endTime)
  }

  /** The request for one cell settles that cell and touches no other. */
  lemma CellOpEffect(c: Cell, matrix: map<Cell, bool>, existing: map<Cell, Rule>, view: map<Cell, Rule>,
                     staffId: int, t: TimeRange)
    requires WellFormedView(existing, staffId)
    requires Lookup(view, c) == Lookup(existing, c)
    requires c in view ==> view[c].id > 0 && forall d :: d in view && d != c ==> view[d].id != view[c].id
    ensures var after := ApplyOps(view, OptList(CellOp(c, Checked(matrix, c), Lookup(existing, c), staffId, t)));
            && Saved(after, matrix, staffId, t, c)
            && (c in after ==> after[c].id == 0 || (c in existing && after[c].id == existing[c].id))
            && forall d :: d != c ==> Lookup(after, d) == Lookup(view, d)
  {
    var o := CellOp(c, Checked(matrix, c), Lookup(existing, c), staffId, t);
    if o.Some? {
      assert ApplyOps(view, [o.value]) == ApplyOp(view, o.value);
    }
  }

  /** Applying the requests for `cells` settles exactly those cells. */
  lemma {:induction false} ApplyOpsFor(cells: seq<Cell>, matrix: map<Cell, bool>, existing: map<Cell, Rule>,
                                       view: map<Cell, Rule>, staffId: int, t: TimeRange)
    requires NoDups(cells)
    requires WellFormedView(existing, staffId)
    requires forall c :: c in cells ==> Lookup(view, c) == Lookup(existing, c)
    requires forall c :: c in cells && c in view ==>
               view[c].id > 0 && forall d :: d in view && d != c ==> view[d].id != view[c].id
    ensures var after := ApplyOps(view, OpsFor(cells, matrix, existing, staffId, t));
            && (forall c :: c in cells ==> Saved(after, matrix, staffId, t, c))
            && (forall c :: c !in cells ==> Lookup(after, c) == Lookup(view, c))
  {
    if |cells| > 0 {
      var c0 := cells[0];
      var first := OptList(CellOp(c0, Checked(matrix, c0), Lookup(existing, c0), staffId, t));
      var rest := OpsFor(cells[1..], matrix, existing, staffId, t);
      var mid := ApplyOps(view, first);
      CellOpEffect(c0, matrix, existing, view, staffId, t);
      ApplyOpsAppend(view, first, rest);
      assert c0 !in cells[1..] by {
        forall k | 0 <= k < |cells[1..]| ensures cells[1..][k] != c0 {
          assert cells[1..][k] == cells[k + 1];
        }
      }
      assert NoDups(cells[1..]) by {
        forall i, j | 0 <= i < j < |cells[1..]| ensures cells[1..][i] != cells[1..][j] {
          assert cells[1..][i] == cells[i + 1] && cells[1..][j] == cells[j + 1];
        }
      }
      forall c | c in cells[1..] && c in mid
        ensures mid[c].id > 0 && forall d :: d in mid && d != c ==> mid[d].id != mid[c].id
      {
        assert c != c0 && c in cells;
        assert Lookup(mid, c) == Lookup(view, c);
        forall d | d in mid && d != c ensures mid[d].id != mid[c].id {
          if d != c0 {
            assert Lookup(mid, d) == Lookup(view, d);
          } else if c0 in existing && mid[c0].id == existing[c0].id {
            assert Lookup(view, c0) == Lookup(existing, c0);
          }
        }
      }
      ApplyOpsFor(cells[1..], matrix, existing, mid, staffId, t);
    }
  }

  /** Distinct zones give a grid with no cell twice. */
  lemma {:induction false} GridCellsNoDups(zones: seq<Zone>)
    requires forall i, j :: 0 <= i < j < |zones| ==> zones[i].id != zones[j].id
    ensures NoDups(GridCells(zones))
  {
    if |zones| > 0 {
      GridCellsNoDups(zones[1..]);
      var row := WeekCells(zones[0].id);
      var rest := GridCells(zones[1..]);
      assert forall c :: c in rest ==> c.zoneId != zones[0].id by {
        forall c | c in rest ensures c.zoneId != zones[0].id {
          var z :| z in zones[1..] && z.id == c.zoneId;
          var k :| 0 <= k < |zones[1..]| && zones[1..][k] == z;
          assert zones[k + 1] == z;
        }
      }
      var r := row + rest;
      forall i, j | 0 <= i < j < |r| ensures r[i] != r[j] {
        if j < |row| {
        } else if i < |row| {
          assert r[j] in rest;
        } else {
          assert r[i] == rest[i - |row|] && r[j] == rest[j - |row|];
        }
      }
    }
  }

  /** After a save, every cell of the grid holds a rule exactly when it is
      checked, with the chosen times, and cells outside the grid keep their
      rules. The store's ids are positive and distinct, and zone ids are
      distinct, as primary keys are. */
  lemma SaveMakesRulesMatchMatrix(zones: seq<Zone>, matrix: map<Cell, bool>, existing: map<Cell, Rule>,
                                  staffId: int, t: TimeRange)
    requires forall i, j :: 0 <= i < j < |zones| ==> zones[i].id != zones[j].id
    requires WellFormedView(existing, staffId) && DistinctIds(existing) && PositiveIds(existing)
    ensures var after := ApplyOps(existing, SaveOps(zones, matrix, existing, staffId, t));
            && (forall c :: c in GridCells(zones) ==> Saved(after, matrix, staffId, t, c))
            && (forall c :: c !in GridCells(zones) ==> Lookup(after, c) == Lookup(existing, c))
  {
    GridCellsNoDups(zones);
    ApplyOpsFor(GridCells(zones), matrix, existing, existing, staffId, t);
  }

  /** No request is needed for cells that already agree with the matrix. */
  lemma {:induction false} SettledCellsNeedNothing(cells: seq<Cell>, matrix: map<Cell, bool>,
                                                    existing: map<Cell, Rule>, staffId: int, t: TimeRange)
    requires forall c :: c in cells ==> Saved(existing, matrix, staffId, t, c)
    ensures OpsFor(cells, matrix, existing, staffId, t) == []
  {
    if |cells| > 0 {
      assert cells[0] in cells;
      SettledCellsNeedNothing(cells[1..], matrix, existing, staffId, t);
    }
  }

  /** Saving again without editing anything sends no request. */
  lemma SaveIsIdempotent(zones: seq<Zone>, matrix: map<Cell, bool>, existing: map<Cell, Rule>,
                         staffId: int, t: TimeRange)
    requires forall i, j :: 0 <= i < j < |zones| ==> zones[i].id != zones[j].id
    requires WellFormedView(existing, staffId) && DistinctIds(existing) && PositiveIds(existing)
    ensures var after := ApplyOps(existing, SaveOps(zones, matrix, existing, staffId, t));
            SaveOps(zones, matrix, after, staffId, t) == []
  {
    SaveMakesRulesMatchMatrix(zones, matrix, existing, staffId, t);
    var after := ApplyOps(existing, SaveOps(zones, matrix, existing, staffId, t));
    SettledCellsNeedNothing(GridCells(zones), matrix, after, staffId, t);
  }
}

=== FILE: text.dfy ===
/** String helpers with the meaning of the JavaScript string operations the
    pages use: `toLowerCase`, the `/visio/i` test, `trim`, `split(',')` and
    `Number(…)` on decimal digit strings. */
module Text {

  /** Lower-casing of one character (ASCII letters only). */
  function LowerChar(c: char): char {
    if 'A' <= c <= 'Z' then (c as int + 32) as char else c
  }

  /** `s.toLowerCase()` restricted to ASCII letters. */
  function Lower(s: string): string {
    seq(|s|, i requires 0 <= i < |s| => LowerChar(s[i]))
  }

  /** The regular expression test `/visio/i.test(s)`: "visio" occurs in `s`,
      ignoring the case of ASCII letters. */
  predicate MentionsVisio(s: string) {
    exists i :: 0 <= i <= |s| - 5 && VisioAt(s, i)
  }

  /** "visio", in any case, starts at index `i` of `s`. */
  predicate VisioAt(s: string, i: int)
    requires 0 <= i <= |s| - 5
  {
    Lower(s[i..i + 5]) == "visio"
  }

  /** The characters `String.prototype.trim` removes: the ECMAScript
      WhiteSpace and LineTerminator code points. */
  predicate IsSpace(c: char) {
    || c == '\t' || c == '\n' || c == '\U{000B}' || c == '\U{000C}' || c == '\r' || c == ' '
    || c == '\U{00A0}' || c == '\U{1680}' || ('\U{2000}' <= c <= '\U{200A}')
    || c == '\U{2028}' || c == '\U{2029}' || c == '\U{202F}' || c == '\U{205F}'
    || c == '\U{3000}' || c == '\U{FEFF}'
  }

  /** Number of leading white-space characters of `s`. */
  function LeadingSpaces(s: string): (n: nat)
    ensures n <= |s|
    ensures forall k :: 0 <= k < n ==> IsSpace(s[k])
    ensures n == |s| || !IsSpace(s[n])
  {
    if |s| > 0 && IsSpace(s[0]) then 1 + LeadingSpaces(s[1..]) else 0
  }

  /** Where the trailing white space of `s` begins, looking no further left than `lo`. */
  function TrailingStart(s: string, lo: nat): (n: nat)
    requires lo <= |s|
    ensures lo <= n <= |s|
    ensures forall k :: n <= k < |s| ==> IsSpace(s[k])
    ensures n == lo || !IsSpace(s[n - 1])
    decreases |s|
  {
    if |s| > lo && IsSpace(s[|s| - 1]) then TrailingStart(s[..|s| - 1], lo) else |s|
  }

  /** `s` neither starts nor ends with white space. */
  predicate IsTrimmed(s: string) {
    s == [] || (!IsSpace(s[0]) && !IsSpace(s[|s| - 1]))
  }

  /** `s.trim()`: `s` without its leading and trailing white space. */
  function Trim(s: string): (r: string)
    ensures IsTrimmed(r)
    ensures exists i :: 0 <= i <= |s| - |r| && StrippedAt(s, r, i)
  {
    var i := LeadingSpaces(s);
    var j := TrailingStart(s, i);
    assert j == i || !IsSpace(s[i]);
    assert StrippedAt(s, s[i..j], i);
    s[i..j]
  }

  /** `r` is `s` with only white space removed before index `i` and after `r`. */
  predicate StrippedAt(s: string, r: string, i: int)
    requires 0 <= i <= |s| - |r|
  {
    && r == s[i..i + |r|]
    && (forall k :: 0 <= k < i ==> IsSpace(s[k]))
    && (forall k :: i + |r| <= k < |s| ==> IsSpace(s[k]))
  }

  /** Trimming a trimmed string changes nothing, so `trim` is idempotent. */
  lemma TrimOfTrimmed(s: string)
    requires IsTrimmed(s)
    ensures Trim(s) == s
  {
    var i := LeadingSpaces(s);
    assert i == 0;
    var j := TrailingStart(s, 0);
    assert j == |s|;
  }

  /** `s.split(sep)`: the maximal runs of `s` between occurrences of `sep`. */
  function Split(s: string, sep: char): (r: seq<string>)
    ensures |r| >= 1
    ensures forall i :: 0 <= i < |r| ==> sep !in r[i]
    ensures Join(r, sep) == s
  {
    if |s| == 0 then [""]
    else if s[0] == sep then
      assert s == [sep] + s[1..];
      [""] + Split(s[1..], sep)
    else
      var t := Split(s[1..], sep);
      JoinGlue(s[0], t, sep);
      assert s == [s[0]] + s[1..];
      [[s[0]] + t[0]] + t[1..]
  }

  /** Gluing a character onto the first piece puts it in front of the join. */
  lemma JoinGlue(c: char, t: seq<string>, sep: char)
    requires |t| >= 1
    ensures Join([[c] + t[0]] + t[1..], sep) == [c] + Join(t, sep)
  {
    var r := [[c] + t[0]] + t[1..];
    assert r[0] == [c] + t[0] && r[1..] == t[1..];
    if |t| > 1 {
      assert [c] + t[0] + [sep] + Join(t[1..], sep) == [c] + (t[0] + [sep] + Join(t[1..], sep));
    }
  }

  /** `pieces.join(sep)`. */
  function Join(pieces: seq<string>, sep: char): string
    requires |pieces| >= 1
  {
    if |pieces| == 1 then pieces[0] else pieces[0] + [sep] + Join(pieces[1..], sep)
  }

  /** Splitting a join of separator-free pieces gives the pieces back. */
  lemma {:induction false} SplitJoin(pieces: seq<string>, sep: char)
    requires |pieces| >= 1
    requires forall i :: 0 <= i < |pieces| ==> sep !in pieces[i]
    ensures Split(Join(pieces, sep), sep) == pieces
  {
    if |pieces| == 1 {
      SplitPiece(pieces[0], sep, []);
      assert pieces[0] + [] == pieces[0];
    } else {
      var j := Join(pieces[1..], sep);
      SplitJoin(pieces[1..], sep);
      SplitAtSeparator(j, sep);
      SplitPiece(pieces[0], sep, [sep] + j);
      JoinCons(pieces, sep);
      assert pieces[0] + "" == pieces[0];
      assert [pieces[0]] + pieces[1..] == pieces;
    }
  }

  /** A leading separator splits off an empty first piece. */
  lemma SplitAtSeparator(j: string, sep: char)
    ensures Split([sep] + j, sep) == [""] + Split(j, sep)
  {
    assert ([sep] + j)[0] == sep && ([sep] + j)[1..] == j;
  }

  /** The join of two or more pieces is the first, a separator, and the join of the rest. */
  lemma JoinCons(pieces: seq<string>, sep: char)
    requires |pieces| >= 2
    ensures Join(pieces, sep) == pieces[0] + ([sep] + Join(pieces[1..], sep))
  {
  }

  /** Splitting `w + rest`, with `w` separator-free, glues `w` onto the first piece of `rest`. */
  lemma {:induction false} SplitPiece(w: string, sep: char, rest: string)
    requires sep !in w
    ensures var t := Split(rest, sep); Split(w + rest, sep) == [w + t[0]] + t[1..]
    decreases |w|
  {
    if |w| > 0 {
      assert (w + rest)[0] == w[0];
      assert (w + rest)[1..] == w[1..] + rest;
      SplitPiece(w[1..], sep, rest);
      assert [w[0]] + (w[1..] + Split(rest, sep)[0]) == w + Split(rest, sep)[0];
    } else {
      var t := Split(rest, sep);
      assert w + rest == rest;
      assert w + t[0] == t[0];
      assert [t[0]] + t[1..] == t;
    }
  }

  /** A decimal digit character. */
  predicate IsDigit(c: char) {
    '0' <= c <= '9'
  }

  /** `s` is a non-empty string of decimal digits. */
  predicate IsDecimal(s: string) {
    |s| > 0 && forall i :: 0 <= i < |s| ==> IsDigit(s[i])
  }

  /** The value of a string of decimal digits. */
  function DecimalValue(s: string): nat
    requires forall i :: 0 <= i < |s| ==> IsDigit(s[i])
  {
    if |s| == 0 then 0
    else
      assert IsDigit(s[|s| - 1]);
      DecimalValue(s[..|s| - 1]) * 10 + (s[|s| - 1] as int - '0' as int)
  }

  /** `String(n)` for a natural number. */
  function DecimalString(n: nat): (s: string)
    ensures IsDecimal(s)
  {
    var d := ['0' + (n % 10) as char];
    if n < 10 then d else DecimalString(n / 10) + d
  }

  /** Reading back a rendered number gives the number. */
  lemma {:induction false} DecimalRoundTrip(n: nat)
    ensures DecimalValue(DecimalString(n)) == n
  {
    var s := DecimalString(n);
    if n >= 10 {
      DecimalRoundTrip(n / 10);
      assert s[..|s| - 1] == DecimalString(n / 10);
    }
  }
}
